=== FILE: README.md ===
# greener-az core, modelled in Dafny

greener-az is a React dashboard of Arizona electricity use. This project models its logic as immutable datatypes and pure transition functions, with proofs about them:

- **The EIA client** (`EiaApi`):
  - the configured/unconfigured gate and the 5-minute request cache;
  - the fold of hourly region-data records into per-balancing-authority readings, and the grid-stress classification;
  - the county estimates and the residential-rate lookup with its 13.5 fallback.
- **Both real-time services**:
  - `RealTimeService` for the TypeScript version: two subscriber lists, the `isConnected`/`isOnline` flags and the update interval, driven by explicit events;
  - `RealTimeLegacy` for the older JavaScript version.
  - The simulated feed they share (`DayCycle`): the peak and night classifiers, the consumption multiplier, the solar-efficiency curve and the update record.
  - Shared pieces: the subscriber lists (`Registry`) and the interval handles (`Timers`).
- **The historical service** (`Historical`):
  - the 30-minute per-county cache;
  - the monthly and yearly aggregation loops with their per-period fallbacks;
  - the synthetic daily generator, the whole-series fallback and the county tables.
  - The freshness rule is shared with the EIA client through `TtlCache`.
- **The carbon-footprint arithmetic** (`CarbonFootprint`).
- **The pure logic inside components**:
  - colour bucketing, the real-time merge, footprint enrichment and marker radius of the map (`ElectricityMap`);
  - the 12/10-point chart generator (`TimeData`);
  - the statistics panel (`StatsOverview`);
  - the season and action rules of the carbon-reduction dialog (`CarbonReduction`).
- **Entity types** from `src/types/index.ts` (`Domain`).

Modelling conventions:

- Numbers are exact reals and `Math.round(x)` is `floor(x + 0.5)`. `x || d` on a number is modelled as "x unless x is 0 or absent".
- `Math.random()` draws are parameters in [0, 1) and `Math.sin` values are parameters in [-1, 1]. The clock is split into the hour, the day of the week and a millisecond time.
- Months are absolute indices (`year * 12 + month`).
- HTTP requests are represented by the responses they produce.
- Callbacks are values compared by identity.
- Each service transition returns the next state and the callback invocations it makes, in order.

These behaviours of the code are modelled as written:

- `disconnect` notifies the status subscribers on every call, including a repeated one.
- The interval callback and `fetchAndBroadcastUpdates` never look at `isConnected`.
- A second `connect` overwrites the stored interval handle without clearing it.

## Model

| member | source | states |
|---|---|---|
| TtlCache.StoreThenLookup | src/services/EIAApiService.ts:80-83 | a stored entry is served back exactly while less than the time-to-live has elapsed since it was stored |
| TtlCache.StoreKeepsOtherKeys | src/services/HistoricalDataService.ts:53-56 | storing one county's entry leaves every other key's lookup unchanged |
| TtlCache.MissStaysMiss | src/services/HistoricalDataService.ts:33 | once an entry is stale it stays stale at every later time: entries are never refreshed by reading |
| TtlCache.ExpiresExactlyAtTtl | src/services/EIAApiService.ts:51 | the freshness test is strict: an entry is served one millisecond before the deadline and missed at the deadline itself |
| TtlCache.Clear | src/services/EIAApiService.ts:342-344 | clearing leaves no entry at all |
| TtlCache.Store | src/services/EIAApiService.ts:100-103 | storing adds the key and keeps every existing key |
| Registry.Subscribe | src/services/RealTimeDataService.ts:17-18 | subscribing appends the callback after the existing registrations, which are kept in order |
| Registry.Unsubscribe | src/services/RealTimeDataService.ts:19-21 | the unsubscribe function removes every registration of that callback and keeps the count of every other callback |
| Registry.UnsubscribeAppend | src/services/RealTimeDataService.ts:27 | filtering distributes over concatenation, so the surviving callbacks keep their relative order |
| Registry.UnsubscribeAbsent | src/services/RealTimeDataService.js:13-15 | removing a callback that is not registered leaves the list unchanged |
| Registry.UnsubscribeIdempotent | src/services/RealTimeDataService.ts:19-21 | calling an unsubscribe function twice has no further effect |
| Registry.SubscribeThenUnsubscribe | src/services/RealTimeDataService.ts:17-22 | the unsubscribe of a fresh registration restores the list exactly |
| Registry.DoubleSubscribeRemovesBoth | src/services/RealTimeDataService.ts:17-22 | a callback registered twice is removed entirely by one unsubscribe, and nothing else is removed |
| Registry.Broadcast | src/services/RealTimeDataService.ts:163-171 | every registration receives the update once, in registration order; a throwing callback does not stop the later ones |
| Registry.UnsubscribedReceivesNothing | src/services/RealTimeDataService.ts:163-171 | after unsubscribing, a callback receives nothing from any broadcast |
| Timers.Arm | src/services/RealTimeDataService.ts:65-69 | arming an interval yields a truthy handle that no live interval uses, and makes it live |
| Timers.Cancel | src/services/RealTimeDataService.ts:79-82 | clearing an interval stops exactly that interval; every other stays live |
| DayCycle.PeakAndNightDisjoint | src/services/RealTimeDataService.ts:103-104 | no hour is both a peak hour and a night hour, so the order of the two overrides does not matter |
| DayCycle.ConsumptionMultiplier | src/services/RealTimeDataService.ts:106-109 | the multiplier is 1.15 exactly at peak, 0.85 exactly at night and 1.0 exactly otherwise |
| DayCycle.SolarEfficiency | src/services/RealTimeDataService.ts:153-161 | efficiency lies in [0, 1], is 0 before 6:00 and after 19:00, and is 1 exactly on [12, 16] |
| DayCycle.SolarPiecesAgree | src/services/RealTimeDataService.js:106-114 | the pieces of the solar curve meet at 6, 8, 12, 16 and 19, so the curve has no jumps |
| DayCycle.SolarRisesThenFalls | src/services/RealTimeDataService.ts:155-159 | efficiency never falls from 6:00 to noon and never rises from noon to 19:00 |
| DayCycle.CountyUpdate | src/services/RealTimeDataService.ts:125-139 | a county's consumption is the expected demand jittered within [0.95, 1.05] and its generation the expected supply jittered within [0.9, 1.1], both rounded |
| DayCycle.FetchRealTimeUpdates | src/services/RealTimeDataService.ts:96-151 | the update covers exactly Maricopa, Pima and Pinal; its flags match the classifiers; the state renewable share lies in [0, 26.1] and reaches 26.1 exactly from 12:00 to 16:59; the status message is the peak message exactly at peak and the night message exactly at night, and otherwise "Normal operations" with Normal stress everywhere; the reported multiplier and solar efficiency are the classifiers' values and the state total is 71,800,000 times the multiplier, rounded |
| DayCycle.WeekdayAfternoonPoll | src/services/RealTimeDataService.ts:96-151 | at 15:00 on a weekday the multiplier is 1.15, the state total 82,570,000, solar efficiency 1, the share 26.1%, and the peak message and High stress are reported |
| RealTimeService.New | src/services/RealTimeDataService.ts:4-15 | a new service has no subscribers on either channel, is disconnected with no interval, takes its online flag from the browser, and satisfies the service invariant |
| RealTimeService.GetConnectionStatus | src/services/RealTimeDataService.ts:173-179 | the reported connectivity is `isConnected && isOnline`, and the subscriber count is the number of data registrations |
| RealTimeService.SubscribeData | src/services/RealTimeDataService.ts:17-22 | subscribing to data appends to the data list and changes nothing else |
| RealTimeService.UnsubscribeData | src/services/RealTimeDataService.ts:19-21 | after unsubscribing, the callback is not in the data list, and nothing else changes |
| RealTimeService.SubscribeStatus | src/services/RealTimeDataService.ts:24-25 | subscribing to status appends to the status list and changes nothing else |
| RealTimeService.UnsubscribeStatus | src/services/RealTimeDataService.ts:26-28 | after unsubscribing, the callback is not in the status list, and nothing else changes |
| RealTimeService.NotifyStatus | src/services/RealTimeDataService.ts:46-55 | every status callback is called once, in order, with `isConnected && isOnline` |
| RealTimeService.FetchAndBroadcast | src/services/RealTimeDataService.ts:87-94 | every data callback receives the same simulated update, in order, whether or not the service is connected |
| RealTimeService.Connect | src/services/RealTimeDataService.ts:57-75 | connect sets the flag and arms a fresh interval; it notifies status subscribers first, then fetches and broadcasts only when online; subscriber lists and the online flag are untouched |
| RealTimeService.Disconnect | src/services/RealTimeDataService.ts:77-85 | disconnect clears the flag, clears and forgets the stored interval, and tells every status subscriber false; nothing else changes |
| RealTimeService.Tick | src/services/RealTimeDataService.ts:65-69 | a cleared interval never fires; a live one, when online, delivers the current update to every data subscriber in subscription order (the status subscribers hear nothing), and the state is unchanged |
| RealTimeService.HandleOnline | src/services/RealTimeDataService.ts:31-38 | going online sets the flag; when connected every status subscriber hears `true` first and then every data subscriber receives the current update, each in subscription order; when not connected nothing is delivered |
| RealTimeService.HandleOffline | src/services/RealTimeDataService.ts:40-44 | going offline clears the flag and always tells every status subscriber false |
| RealTimeService.Apply | src/services/RealTimeDataService.ts:57-85 | every event preserves the invariant that a stored handle is live and stored exactly while connected |
| RealTimeService.Run | src/services/RealTimeDataService.ts:17-85 | any sequence of events preserves the service invariant |
| RealTimeService.ReportedConnectivityAgrees | src/services/RealTimeDataService.ts:47 | after any event, each status callback invoked is told exactly what `getConnectionStatus` then reports, and data is delivered only while online |
| RealTimeService.DisconnectTwice | src/services/RealTimeDataService.ts:77-85 | a second disconnect leaves the state as the first left it, yet notifies every status subscriber again |
| RealTimeService.DisconnectStopsInterval | src/services/RealTimeDataService.ts:79-82 | after one connect, disconnect leaves the armed interval cleared, so it never fires again |
| RealTimeService.ConnectTwiceLeaksInterval | src/services/RealTimeDataService.ts:65 | after two connects and a disconnect, the first interval is still live and still broadcasts while online |
| RealTimeLegacy.New | src/services/RealTimeDataService.js:4-9 | a new service is disconnected with no subscribers and no interval |
| RealTimeLegacy.GetConnectionStatus | src/services/RealTimeDataService.js:126-131 | the reported connectivity is the service flag alone, with no network component |
| RealTimeLegacy.SubscribeData | src/services/RealTimeDataService.js:11-12 | subscribing appends and changes nothing else |
| RealTimeLegacy.UnsubscribeData | src/services/RealTimeDataService.js:13-15 | after unsubscribing, the callback is not registered, and nothing else changes |
| RealTimeLegacy.Connect | src/services/RealTimeDataService.js:18-29 | connect sets the flag, arms a fresh interval and always broadcasts one update to every subscriber in order |
| RealTimeLegacy.Disconnect | src/services/RealTimeDataService.js:31-38 | disconnect clears the flag and cancels exactly the stored interval, keeping every other timer live, and calls no callback |
| RealTimeLegacy.Tick | src/services/RealTimeDataService.js:23-25 | a live interval always delivers the current update to every subscriber in subscription order, connected or not; a cleared one never fires |
| RealTimeLegacy.ConnectThenDisconnect | src/services/RealTimeDataService.js:18-38 | connect then disconnect is silent on the way out and leaves the armed interval cleared |
| RealTimeLegacy.DisconnectIdempotent | src/services/RealTimeDataService.js:31-38 | a second disconnect changes nothing and calls nobody |
| EiaApi.FoldLast | src/services/EIAApiService.ts:177-194 | a record changes only the reading of the authority it names |
| EiaApi.FoldIsMaxAndSum | src/services/EIAApiService.ts:182-192 | per authority, demand and generation are the largest of 0 and the matching values (a missing value counting as 0), and interchange is the sum of the matching values |
| EiaApi.MaxWinsExample | src/services/EIAApiService.ts:184-186 | demand values 500 and 650 for the same authority give 650, in either order |
| EiaApi.FoldNonNegative | src/services/EIAApiService.ts:168-169 | demand and generation readings never go below their initial 0 |
| EiaApi.FoldAppend | src/services/EIAApiService.ts:173-196 | folding two record lists one after the other is combining their separate folds |
| EiaApi.FoldPermutationInvariant | src/services/EIAApiService.ts:173-196 | the readings do not depend on the order of the records |
| EiaApi.ProcessElectricityData | src/services/EIAApiService.ts:162-206 | the AZPS and SRP readings are those of the fold over all records of all responses: demand and generation are the maximum of 0 and every matching value, interchange is the sum of the matching values; each state total is the AZPS figure plus the SRP figure; the timestamp is the processing time |
| EiaApi.ProcessOrderIndependent | src/services/EIAApiService.ts:93-97 | responses holding the same records in any order, in particular AZPS-first or SRP-first, give the same processed data |
| EiaApi.GridStressThresholds | src/services/EIAApiService.ts:271-278 | for positive generation, the level is High, Moderate, Normal or Low exactly when demand exceeds 0.9, 0.75 or 0.5 of generation, or does not exceed 0.5 of it |
| EiaApi.ZeroGenerationStress | src/services/EIAApiService.ts:272 | zero generation with non-zero demand gives High, and zero of both gives Low |
| EiaApi.GridStressMonotone | src/services/EIAApiService.ts:274-277 | with generation fixed, more demand never lowers the level |
| EiaApi.EstimateFor | src/services/EIAApiService.ts:243-262 | a tracked authority's reading is scaled by the county's share and converted to kWh within rounding, with its stress level; an untracked authority gives the zero, non-real-time placeholder |
| EiaApi.MappingsTracked | src/services/EIAApiService.ts:213-239 | every county in the table is served by AZPS or SRP |
| EiaApi.MapBalancingAuthorityToCounties | src/services/EIAApiService.ts:211-266 | there is exactly one estimate per county of the table, each computed from its authority's reading |
| EiaApi.CountyEstimatesAreRealTime | src/services/EIAApiService.ts:246-252 | every county estimate is marked real-time and stamped with the processing time |
| EiaApi.ConfiguredIffKeyPresent | src/services/EIAApiService.ts:65-67 | the client is configured exactly when the environment supplies a non-empty key |
| EiaApi.ClearCache | src/services/EIAApiService.ts:342-344 | after clearing, both cached lookups miss at every time, and the key is kept |
| EiaApi.FetchBalancingAuthorityData | src/services/EIAApiService.ts:144-156 | the response is accepted exactly when the status is 2xx, the body parses and both envelope levels exist; a non-2xx status fails with its status and text |
| EiaApi.FetchArizonaElectricityData | src/services/EIAApiService.ts:72-111 | unconfigured fails before the cache and the requests; a fresh entry is returned without requests; a miss succeeds exactly when both requests succeed; only a success replaces the entry, stamped when the responses arrive; on a miss with both requests successful the result is the processing of exactly those two responses; the rate slot and the key are never touched |
| EiaApi.ElectricityCacheRoundTrip | src/services/EIAApiService.ts:80-103 | a successful fetch is served back unchanged to every call less than 5 minutes later; at exactly 5 minutes the cache misses and new responses are used |
| EiaApi.FetchArizonaResidentialRateData | src/services/EIAApiService.ts:283-337 | unconfigured fails, because that throw sits outside the `try`; once configured it never fails: a fresh cached rate, else the parsed price, which is cached under the time the response arrived, else 13.5 with the cache unchanged |
| EiaApi.RateCacheRoundTrip | src/services/EIAApiService.ts:288-292 | a parsed rate is returned and then served back, whatever the later response, to every call less than 5 minutes later; at exactly 5 minutes the later response decides as on an empty cache |
| Historical.GetBalancingAuthority | src/services/HistoricalDataService.ts:197-212 | WALC exactly for Yuma and Mohave, SRP exactly for Gila, AZPS for every other county name (names that are keys a plain object inherits are outside the model) |
| Historical.BaseValues | src/services/HistoricalDataService.ts:226-253 | an unlisted county gets 100000 MWh and 20 percent, and every listed base lies in the table's ranges |
| Historical.UnlistedCountyIsAzps | src/services/HistoricalDataService.ts:211 | any county name outside the table, other than an inherited object key, is attributed to AZPS |
| Historical.Seasonal | src/services/HistoricalDataService.ts:258 | the seasonal multiplier lies in [0.7, 1.3] |
| Historical.Variation | src/services/HistoricalDataService.ts:261 | the random variation lies in [0.85, 1.15) |
| Historical.Noise | src/services/HistoricalDataService.ts:339 | the renewable noise lies in [-2.5, 2.5) |
| Historical.FactorBounds | src/services/HistoricalDataService.ts:331-338 | seasonal times random variation lies in [0.595, 1.495] |
| Historical.FallbackPoint | src/services/HistoricalDataService.ts:312-342 | a fallback point keeps its date, and its consumption and share lie in the base values' seasonal and random bounds |
| Historical.UnlistedFallbackBounds | src/services/HistoricalDataService.ts:327-339 | for an unlisted county name that is not an inherited object key, consumption lies in [59500, 149500] and the share in [17.5, 22.5] |
| Historical.MockPoint | src/services/HistoricalDataService.ts:256-276 | a generated day keeps its date; its share never exceeds 50 and stays within the base share plus noise and an improvement of at most 10 points |
| Historical.GenerateMockDataForPeriod | src/services/HistoricalDataService.ts:217-283 | there is one point per day from start to end inclusive, in day order, each with a share of at most 50 |
| Historical.FetchDataForPeriod | src/services/HistoricalDataService.ts:166-192 | the period fetch fails exactly when the EIA client is unconfigured, and otherwise returns one point per day |
| Historical.RollUp | src/services/HistoricalDataService.ts:88-98 | a period's consumption is the rounded total, and its share is within 0.05 of the mean share and a whole number of tenths, the mean rounded to one decimal |
| Historical.RollUpShareBounds | src/services/HistoricalDataService.ts:135-145 | when every daily share lies in [0, 50], so does the period's |
| Historical.PeriodPoint | src/services/HistoricalDataService.ts:99-107 | a non-empty period gives its roll-up; an empty or failed period gives exactly one fallback point and the loop goes on |
| Historical.MonthPoint | src/services/HistoricalDataService.ts:82-107 | a monthly point carries its own month however it came about |
| Historical.YearPoint | src/services/HistoricalDataService.ts:133-154 | a yearly point is labelled with the year when rolled up, January of the year when empty, and the current month of the year when the fetch failed |
| Historical.CollectPeriods | src/services/HistoricalDataService.ts:79-111 | the loop yields one point per period from the first to the last inclusive, in order, each computed on its own |
| Historical.FetchMonthlyDataAsWritten | src/services/HistoricalDataService.ts:72-111 | the monthly loop as written yields 13 points, point i being the period point of month M-12+i for the current month M, so it starts and ends in the same calendar month a year apart |
| Historical.FetchMonthlyData | src/services/HistoricalDataService.ts:71-114 | the corrected monthly loop yields the 12 months ending now, oldest first, each labelled with its month |
| Historical.FetchYearlyDataAsWritten | src/services/HistoricalDataService.ts:120-158 | the yearly loop as written yields 11 points, for ten years back through the current year |
| Historical.FetchYearlyData | src/services/HistoricalDataService.ts:119-161 | the corrected yearly loop yields the 10 years ending now, oldest first |
| Historical.GenerateFallbackData | src/services/HistoricalDataService.ts:288-307 | the whole-series fallback has 12 monthly points ending with the current month and 10 yearly points dated January 1 of the last 10 years, oldest first |
| Historical.CacheKey | src/services/HistoricalDataService.ts:30 | the key is a fixed prefix followed by the county name |
| Historical.CacheKeyInjective | src/services/HistoricalDataService.ts:30 | distinct counties never share a cache entry |
| Historical.Resolve | src/services/HistoricalDataService.ts:33-65 | a fresh entry wins; a built result is cached and returned; the catch-branch fallback is returned uncached |
| Historical.GetCountyHistoricalData | src/services/HistoricalDataService.ts:29-66 | while the entry is fresh the cached series is returned unchanged; otherwise the loops as written build 13 monthly points, the period points of months M-12 through M (the current calendar month first and last), and 11 yearly points, those of years Y-10 through Y, which are cached under the county's key and returned |
| Historical.GetCountyHistoricalDataCorrected | src/services/HistoricalDataService.ts:29-66 | the same entry point over the corrected loops: a miss yields the period points of the 12 months ending now and of the 10 years ending now, oldest first, cached and returned |
| Historical.ClearCache | src/services/HistoricalDataService.ts:347-350 | after clearing, every county misses at every time |
| CarbonFootprint.EstimatedTons | src/services/CarbonFootprintService.ts:83-89 | the estimate falls linearly from 0.386 t per MWh at 0% renewable to 0.046 t per MWh at 100%, 3.4 kg per MWh per percentage point |
| CarbonFootprint.CalculateCountyCarbonFootprint | src/services/CarbonFootprintService.ts:66-129 | household tons are 2.65 times per-capita tons; kg per month and pounds per day convert back to the same tons per year; the emission split sums to the total; the impact reduction equals the input share; the car-mile, tree and gasoline equivalents are per-capita tons times 2404, 16.5 and 113.4 |
| CarbonFootprint.CountyTotalChoice | src/services/CarbonFootprintService.ts:79-113 | a truthy override is the total, and otherwise the total is the estimate; per-capita times population is that total; the renewable part is weighted by 46/386 |
| CarbonFootprint.EstimateBoundsAndMonotone | src/services/CarbonFootprintService.ts:83-90 | for a share in [0, 100], the estimate lies between the all-solar and all-grid figures, and a larger share never raises it |
| CarbonFootprint.CalculatePersonalFootprint | src/services/CarbonFootprintService.ts:134-146 | the household footprint is the estimate for twelve months of usage in MWh, and one person carries 1/2.65 of it |
| CarbonFootprint.CalculatePersonalFootprintAtDefaultMix | src/services/CarbonFootprintService.ts:134-136 | without a renewable share the default 20% mix applies: the household footprint is 318 kg per MWh of annual usage, and the reported share is 20 |
| CarbonFootprint.PersonalFootprintBounds | src/components/PersonalCarbonCalculator.tsx:27-32 | for input the calculator accepts, the household footprint is positive and at most the all-grid emissions |
| CarbonFootprint.CalculateEfficiencyImpact | src/services/CarbonFootprintService.ts:151-179 | car miles are 2404 per ton saved, and zero efficiency saves nothing |
| CarbonFootprint.EfficiencyMatchesEstimate | src/services/CarbonFootprintService.ts:160-169 | the carbon saved is exactly the grid estimate for the energy saved, and the dollars are that energy in kWh at 13 cents |
| ElectricityMap.Reverse | src/ElectricityMap.tsx:393 | reversal keeps the length and mirrors the positions |
| ElectricityMap.ReversedPaletteIsRenewable | src/ElectricityMap.tsx:390-394 | after the reversal, the consumption palette is colour for colour the renewable palette |
| ElectricityMap.PaletteAsWritten | src/ElectricityMap.tsx:389-394 | as written, every metric uses the red-to-green list |
| ElectricityMap.Palette | src/components/map/MapLegend.tsx:9-15 | the intended palettes have five colours whose two ends differ |
| ElectricityMap.Bucket | src/ElectricityMap.tsx:396-400 | the band index is below 5, and the position lies in the band's interval (above 0.2 times the index, at most 0.2 times the next) |
| ElectricityMap.BucketMonotone | src/ElectricityMap.tsx:396-400 | a larger position never falls into a lower band |
| ElectricityMap.ColorWith | src/ElectricityMap.tsx:367-400 | no data or no value gives grey; otherwise a palette colour or, for a flat range, the flat colour |
| ElectricityMap.GetColorByValueAsWritten | src/ElectricityMap.tsx:367-400 | as written, grey exactly when there is no data or no value, and otherwise a colour of the red-to-green list |
| ElectricityMap.GetColorByValue | src/ElectricityMap.tsx:367-400 | grey exactly when there is no data or no value; otherwise a colour of the metric's palette, and the flat colour when every county has the same value |
| ElectricityMap.ColorFollowsRank | src/ElectricityMap.tsx:381-400 | the colour is the palette entry of the value's band, bands never fall as the value rises, and the smallest value takes the first colour and the largest the last |
| ElectricityMap.ConsumptionLegendLabel | src/components/map/MapLegend.tsx:9-15 | exactly the five legend colours have a label |
| ElectricityMap.AsWrittenConsumptionLegendInverted | src/ElectricityMap.tsx:393 | as written, the county with the lowest consumption is painted the colour the legend calls "Very High", and the highest "Very Low" |
| ElectricityMap.ConsumptionLegendAgrees | src/components/map/MapLegend.tsx:10-14 | with the corrected palette, the lowest consumption shows as "Very Low" and the highest as "Very High" |
| ElectricityMap.ApplyCountyUpdates | src/ElectricityMap.tsx:66-79 | the merge keeps the county count and order; an updated county gets exactly the four real-time fields; every other county is unchanged |
| ElectricityMap.UpdateStateTotals | src/ElectricityMap.tsx:83-90 | the state merge overwrites the three real-time totals and keeps every other total |
| ElectricityMap.MergeRealTime | src/ElectricityMap.tsx:60-98 | without both map data and an update nothing changes; otherwise the counties and totals are merged |
| ElectricityMap.MergeIdempotent | src/ElectricityMap.tsx:60-98 | merging the same update twice equals merging it once |
| ElectricityMap.LatestUpdateWins | src/ElectricityMap.tsx:66-90 | of two updates naming the same counties, the later one alone decides the map |
| ElectricityMap.FeedUpdatesSupersede | src/ElectricityMap.tsx:60-98 | every update of the simulated feed names the same counties, so only the latest shows |
| ElectricityMap.Enrich | src/ElectricityMap.tsx:102-110 | a county gains a footprint whose per-capita tons times population is the county's total, and nothing else changes |
| ElectricityMap.EnrichCountiesWithCarbonFootprint | src/ElectricityMap.tsx:101-111 | enrichment keeps the length and order and adds only the footprint |
| ElectricityMap.MarkerRadius | src/ElectricityMap.tsx:547 | the radius is at least 8, is exactly 8 when consumption is at most 1,280,000 MWh, and its square is exactly the larger of 64 and consumption over 20000, so it is `max(8, sqrt(mwh / 20000))` |
| ElectricityMap.MarkerRadiusMonotone | src/ElectricityMap.tsx:547 | more consumption never gives a smaller marker |
| TimeData.PowAtLeastOne | src/components/TimeData.tsx:48 | a growth base of at least 1 raised to any power is at least 1 |
| TimeData.PowIncreasing | src/components/TimeData.tsx:48 | for a base above 1, powers strictly increase with the exponent |
| TimeData.GrowthAsWritten | src/components/TimeData.tsx:45-48 | the growth factor as written is at least 1 |
| TimeData.Growth | src/components/TimeData.tsx:48 | the intended growth factor is at least 1 |
| TimeData.MonthlyFactorBounds | src/components/TimeData.tsx:33-34 | seasonal variation times monthly jitter lies in [0.56, 1.56] |
| TimeData.MonthlyPoint | src/components/TimeData.tsx:30-40 | a monthly point carries its month; its share is at most 50 and at least the smaller of 50 and the county share minus 5; its consumption lies within the jitter and seasonal bounds |
| TimeData.YearlyPoint | src/components/TimeData.tsx:45-55 | a yearly point carries its year; its share is at most 50 and at least the smaller of 50 and the raised lower bound; its consumption lies within the growth and jitter bounds |
| TimeData.GenerateHistoricalDataAsWritten | src/components/TimeData.tsx:18-59 | as written: no county gives two empty series; otherwise twelve consecutive months and ten consecutive years ending now |
| TimeData.GenerateHistoricalData | src/components/TimeData.tsx:18-59 | corrected: the same shape, with the growth factor rising towards the present |
| TimeData.YearlyConsumptionMonotone | src/components/TimeData.tsx:53 | with equal jitter, a larger growth factor never gives a smaller yearly consumption |
| TimeData.AsWrittenYearlyTrendFalls | src/components/TimeData.tsx:48 | as written, the growth factor shrinks towards the present, so with equal jitter a later year never shows more consumption |
| TimeData.YearlyTrendRises | src/components/TimeData.tsx:48 | corrected, each year grows 2% on the previous, so with equal jitter a later year never shows less consumption |
| TimeData.CreateSvgChart | src/components/TimeData.tsx:69-74 | no chart exactly for empty data; otherwise the scale is the smallest and largest consumption plotted |
| TimeData.ChartsDrawnForSelectedCounty | src/components/TimeData.tsx:22-24 | both charts are drawn exactly when a county is selected |
| StatsOverview.MeanOrZero | src/components/map/StatsOverview.tsx:20-22 | 0 for an absent or empty list; otherwise the mean times the count is the sum |
| StatsOverview.AvgSustainabilityScore | src/components/map/StatsOverview.tsx:20-22 | 0 for an absent or empty list; otherwise the average times the county count is the sum of the scores |
| StatsOverview.AvgCarbonFootprintPerCapita | src/components/map/StatsOverview.tsx:24-26 | the same rule over the per-capita footprints, a missing footprint counting as 0 |
| StatsOverview.AvgSustainabilityWithinScores | src/components/map/StatsOverview.tsx:20-22 | the average lies within any bounds every score lies in |
| StatsOverview.AvgFootprintWithinBounds | src/components/map/StatsOverview.tsx:24-26 | when every footprint present lies in [0, hi], so does the average |
| StatsOverview.TopRenewableCounty | src/components/map/StatsOverview.tsx:28-30 | the leader has a renewable share at least every county's, and every later county has strictly less, so of tied counties the last wins; an empty list gives the placeholder |
| StatsOverview.LastBestUnique | src/components/map/StatsOverview.tsx:29 | the tie-breaking rule picks exactly one county |
| StatsOverview.PerCapitaKwh | src/components/map/StatsOverview.tsx:123 | the divisor is never 0: with a non-zero population the figure times the population is the consumption in kWh; a zero population divides by 1; no totals give 0 |
| CarbonReduction.GetCurrentSeason | src/components/CarbonReductionModal.tsx:35-41 | the season returned contains the month |
| CarbonReduction.SeasonsPartitionYear | src/components/CarbonReductionModal.tsx:35-41 | a month gets a season exactly when it is one of its months; each season has three months and together they cover the year |
| CarbonReduction.GetImmediateActions | src/components/CarbonReductionModal.tsx:184-222 | renewable plan exactly below 20%, audit exactly above 15 MWh per capita, solar quotes always, cool-roof rebates exactly for Phoenix or Tucson; fixed order, 1 to 4 actions |
| CarbonReduction.BuildOrderDeterminedByMembers | src/components/CarbonReductionModal.tsx:184-222 | two lists in the fixed order with the same actions are equal, so the four conditions determine the list |
| CarbonReduction.CarbonReductionModal | src/components/CarbonReductionModal.tsx:32 | nothing is rendered exactly when the dialog is closed; when open, the season contains the month and solar quotes are offered |

## Left out

- HTTP and URL building in both EIA requests are not modelled, because each request is represented by its response.
- Reading the key from the environment and the base URL are reduced to an optional key string.
- `toLowerCase` is modelled on ASCII letters only; respondent names are ASCII.
- NaN and Infinity are not modelled. This affects:
  - a `NaN` record value counted as 0;
  - the `NaN` price, which is folded into an absent price;
  - the non-numeric filter in `getColorByValue`;
  - the chart's scale for a single point or for equal values;
  - division by a zero population.
- CarbonFootprint.CalculateCountyCarbonFootprint: requires a non-zero population, because JavaScript would produce Infinity or NaN there.
- ElectricityMap.Enrich: requires a non-zero population, for the same reason.
- ElectricityMap.EnrichCountiesWithCarbonFootprint: requires a non-zero population for every county, for the same reason.
- CarbonFootprint.CalculatePersonalFootprint: the per-capita figure is stated only through the household figure. The equivalents (car miles, trees, gallons) are computed but not stated.
- ElectricityMap.MarkerRadius: takes the square root as a parameter `root` with `root * root == mwh / 20000`, because reals have no square root.
- Timestamps and ISO-date strings are integers. `toLocaleDateString` labels are the `Label` datatype.
- The calendar is not modelled:
  - `Date` day-of-month rollover is left out;
  - the two `new Date()` reads in a loop are assumed to return the same instant;
  - elapsed years in the daily generator are a parameter bounded by the period.
- Historical.MonthPoint: the day range of each monthly period is not constrained; the period fetch is a parameter. The code starts each period at the current day of the month and time of day, carried over from now, and ends it at midnight on the month's last day. So, when the time of day is past midnight, each month covers only the days from today's day number up to the day before its last day. A month whose last day is today's day number gets an empty period and a fallback point. A month shorter than today's day number is not visited as itself, because `setMonth` rolls the date over into the next month.
- Historical.GetBalancingAuthority: county names are assumed not to be keys that a plain JavaScript object inherits (`toString`, `constructor`, `__proto__` and the like). For such a name `mapping[name] || 'azps'` yields the inherited value instead of AZPS.
- Historical.BaseValues: the same assumption; for an inherited key the base lookup yields a function, and consumption becomes NaN.
- Historical.UnlistedFallbackBounds: its bounds hold only for names that are not inherited object keys, for the reason above.
- ElectricityMap.ApplyCountyUpdates: county names are assumed not to be inherited object keys; for a county named `constructor` the update lookup is truthy and the code writes undefined fields, where the model leaves the county unchanged.
- EiaApi.RespondentOf: respondents other than AZPS and SRP are assumed to lower-case to a name that is not a key of the processed record or of a plain object. A respondent of `timestamp` would make the code write a property onto the timestamp string, which throws and fails the fetch; the model lets such a record contribute nothing.
- Historical.GetCountyHistoricalData: `Promise.all` is sequential here. The catch branch is unreachable because both loops catch every period error, so it is modelled only in `Historical.Resolve`.
- Async interleaving is not modelled: a transition runs to completion before the next event. This covers `connect` awaiting its first fetch, overlapping fetches and interval firing during a fetch.
- Console logging and the `window` event-listener registration are left out. Online/offline arrive as events.
- `setInterval` timing (30 s) is left out. A firing is an explicit `Tick` event for a handle.
- The `useRealTimeData` hooks and all React state are left out, because they are UI wiring around the services.
- `getDataSourceInfo` and `loadRealElectricityData` have no definition in the source. `src/integrations/Core.ts` does not export the second, and neither real-time service defines the first, so they are left out.
- `getFallbackArizonaData` and the static county data are literals with no behaviour, and are left out.
- Static programme, seasonal-tip and action texts of the dialog are reduced to action identities and titles.
- `formatNumber`, `toFixed` and SVG path and coordinate generation are string formatting and geometry with no decision logic, and are left out.
- Presentation components (panels, cards, legend markup other than its colour labels, controls, theme toggle, data-source notices) and the chatbot server and widget are outside the core.
- DayCycle.FetchRealTimeUpdates: the county figures are stated through `DayCycle.CountyUpdate` bounds, not as exact values; the state-wide figures, factors, message and stress levels are stated exactly.

## Findings

| source | as written | input that shows it | evidently intended | confidence | as-written member | corrected member |
|---|---|---|---|---|---|---|
| src/services/HistoricalDataService.ts:121-127 | the yearly loop starts ten years back and runs while the year is at most the current year | any current year Y: the years Y-10 through Y give 11 points | 10 years of data, as the method's comment and the whole-series fallback (288-307) say | not executed | Historical.FetchYearlyDataAsWritten | Historical.FetchYearlyData |
| src/services/HistoricalDataService.ts:73-79 | the monthly loop starts 12 months back and runs while the date is at most now | any current month M, when both clock reads (lines 72-73) fall in the same millisecond and today is day 1 to 28: the months M-12 through M give 13 points, M's calendar month twice (on later days `setMonth` can roll a short month over, so a month may be skipped) | the past 12 months, as the comment and the fallback's 12 monthly points say | not executed | Historical.FetchMonthlyDataAsWritten | Historical.FetchMonthlyData |
| src/ElectricityMap.tsx:393 | the consumption palette is a green-to-red list reversed, so it runs red to green | two counties with consumption per capita 5 and 20: the county at 5 is painted #dc2626, which the consumption legend labels "Very High" | low consumption green and high consumption red, as the legend (src/components/map/MapLegend.tsx:10-14) shows | not executed | ElectricityMap.AsWrittenConsumptionLegendInverted | ElectricityMap.ConsumptionLegendAgrees |
| src/components/TimeData.tsx:48 | the growth factor is `1.02 ** i` with i = 9 for the oldest year | equal jitter for the oldest and newest years: the oldest is scaled by 1.02^9 and the newest by 1, so consumption falls over time | 2% annual growth towards the present, as the comment and the renewable term's `(9 - i)` on line 54 say | not executed | TimeData.AsWrittenYearlyTrendFalls | TimeData.YearlyTrendRises |

=== FILE: carbon_footprint.dfy ===
/**
 * The carbon-footprint arithmetic of `CarbonFootprintService`: emissions from
 * consumption and renewable share, and their per-capita and per-household
 * forms in tons per year, kilograms per month and pounds per day.
 * Arithmetic is on exact reals.
 */
module CarbonFootprint {
  import opened Prelude

  // Emission factors in kg CO2 per MWh.
  const SolarIntensity: real := 46.0
  const GridAverageIntensity: real := 386.0

  // Conversion factors.
  const KgToTons: real := 0.001
  const KgToPounds: real := 2.20462
  const TonsToCarMiles: real := 2404.0
  const TonsToTrees: real := 16.5
  const TonsToGasoline: real := 113.4

  /** Average Arizona household size (persons per household). */
  const AvgHouseholdSize: real := 2.65

  /** The renewable share the personal calculator assumes when none is given. */
  const DefaultRenewablePercentage: real := 20.0

  /** Average Arizona residential rate, dollars per kWh, used for savings. */
  const DollarsPerKWh: real := 0.13

  datatype Estimate = Estimate(
    householdCarbonTonsPerYear: real,
    householdCarbonKgPerMonth: real,
    householdCarbonPoundsPerDay: real,
    perCapitaCarbonTonsPerYear: real,
    perCapitaCarbonKgPerMonth: real,
    perCapitaCarbonPoundsPerDay: real,
    equivalentCarMilesPerYear: real,
    equivalentTreesNeeded: real,
    equivalentGasolineGallons: real,
    renewableImpactReduction: real,
    nonRenewableEmissions: real,
    renewableEmissions: real)

  datatype EfficiencyImpact = EfficiencyImpact(carbonSavedTons: real, dollarsSaved: real, carMilesEquivalent: real)

  /** Tons per year expressed as kilograms per month. */
  function TonsPerYearToKgPerMonth(tons: real): real {
    (tons * 1000.0) / 12.0
  }

  /** Tons per year expressed as pounds per day. */
  function TonsPerYearToPoundsPerDay(tons: real): real {
    (tons * 1000.0 * KgToPounds) / 365.0
  }

  /** The inverse of `TonsPerYearToKgPerMonth`. */
  function KgPerMonthToTonsPerYear(kg: real): real {
    kg * 12.0 / 1000.0
  }

  /** The inverse of `TonsPerYearToPoundsPerDay`. */
  function PoundsPerDayToTonsPerYear(pounds: real): real {
    pounds * 365.0 / KgToPounds / 1000.0
  }

  /**
   * Grid-estimated emissions in tons, computed as the source does: the
   * renewable part at the solar factor plus the rest at the grid average.
   */
  function EstimatedTons(consumptionMWh: real, renewablePercentage: real): (tons: real)
    ensures tons == consumptionMWh * (renewablePercentage / 100.0 * SolarIntensity
                                      + (1.0 - renewablePercentage / 100.0) * GridAverageIntensity) / 1000.0
    ensures tons == consumptionMWh * (GridAverageIntensity - 3.4 * renewablePercentage) / 1000.0
    ensures renewablePercentage == 0.0 ==> tons == consumptionMWh * GridAverageIntensity * KgToTons
    ensures renewablePercentage == 100.0 ==> tons == consumptionMWh * SolarIntensity * KgToTons
  {
    var renewableFraction := renewablePercentage / 100.0;
    var nonRenewableFraction := 1.0 - renewableFraction;
    var renewableEmissionsKg := consumptionMWh * renewableFraction * SolarIntensity;
    var nonRenewableEmissionsKg := consumptionMWh * nonRenewableFraction * GridAverageIntensity;
    (renewableEmissionsKg + nonRenewableEmissionsKg) * KgToTons
  }

  /**
   * `calculateCountyCarbonFootprint`. A truthy emissions override (present
   * and non-zero) is used as the total; otherwise the total is estimated
   * from consumption and renewable share.
   */
  function CalculateCountyCarbonFootprint(consumptionMWh: real, population: real, renewablePercentage: real,
                                          carbonEmissionsTons: Option<real>): (e: Estimate)
    requires population != 0.0
    ensures e.householdCarbonTonsPerYear == AvgHouseholdSize * e.perCapitaCarbonTonsPerYear
    ensures KgPerMonthToTonsPerYear(e.perCapitaCarbonKgPerMonth) == e.perCapitaCarbonTonsPerYear
    ensures KgPerMonthToTonsPerYear(e.householdCarbonKgPerMonth) == e.householdCarbonTonsPerYear
    ensures PoundsPerDayToTonsPerYear(e.perCapitaCarbonPoundsPerDay) == e.perCapitaCarbonTonsPerYear
    ensures PoundsPerDayToTonsPerYear(e.householdCarbonPoundsPerDay) == e.householdCarbonTonsPerYear
    ensures e.renewableEmissions + e.nonRenewableEmissions
            == e.perCapitaCarbonTonsPerYear * population
    ensures e.renewableImpactReduction == renewablePercentage
    ensures e.equivalentCarMilesPerYear == e.perCapitaCarbonTonsPerYear * TonsToCarMiles
    ensures e.equivalentTreesNeeded == e.perCapitaCarbonTonsPerYear * TonsToTrees
    ensures e.equivalentGasolineGallons == e.perCapitaCarbonTonsPerYear * TonsToGasoline
  {
    var estimatedHouseholds := population / AvgHouseholdSize;
    var totalCarbonTons :=
      if carbonEmissionsTons.Some? && carbonEmissionsTons.value != 0.0 then carbonEmissionsTons.value
      else EstimatedTons(consumptionMWh, renewablePercentage);
    var perCapitaCarbonTonsPerYear := totalCarbonTons / population;
    var householdCarbonTonsPerYear := totalCarbonTons / estimatedHouseholds;
    var renewableFraction := renewablePercentage / 100.0;
    var renewableEmissions := totalCarbonTons * renewableFraction * (SolarIntensity / GridAverageIntensity);
    Estimate(
      householdCarbonTonsPerYear,
      TonsPerYearToKgPerMonth(householdCarbonTonsPerYear),
      TonsPerYearToPoundsPerDay(householdCarbonTonsPerYear),
      perCapitaCarbonTonsPerYear,
      TonsPerYearToKgPerMonth(perCapitaCarbonTonsPerYear),
      TonsPerYearToPoundsPerDay(perCapitaCarbonTonsPerYear),
      perCapitaCarbonTonsPerYear * TonsToCarMiles,
      perCapitaCarbonTonsPerYear * TonsToTrees,
      perCapitaCarbonTonsPerYear * TonsToGasoline,
      renewableFraction * 100.0,
      totalCarbonTons - renewableEmissions,
      renewableEmissions)
  }

  /** The total tons a county estimate was computed from. */
  function TotalTons(consumptionMWh: real, renewablePercentage: real, carbonEmissionsTons: Option<real>): real {
    if carbonEmissionsTons.Some? && carbonEmissionsTons.value != 0.0 then carbonEmissionsTons.value
    else EstimatedTons(consumptionMWh, renewablePercentage)
  }

  /**
   * The total used is the override exactly when the override is truthy; the
   * per-capita figure is that total over the population, and the renewable
   * share of it is weighted by the solar-to-grid intensity ratio.
   */
  lemma CountyTotalChoice(consumptionMWh: real, population: real, renewablePercentage: real,
                          carbonEmissionsTons: Option<real>)
    requires population != 0.0
    ensures var e := CalculateCountyCarbonFootprint(consumptionMWh, population, renewablePercentage, carbonEmissionsTons);
            var total := TotalTons(consumptionMWh, renewablePercentage, carbonEmissionsTons);
            && e.perCapitaCarbonTonsPerYear * population == total
            && e.renewableEmissions == total * (renewablePercentage / 100.0) * (46.0 / 386.0)
            && e.renewableEmissions + e.nonRenewableEmissions == total
            && (carbonEmissionsTons == None || carbonEmissionsTons == Some(0.0) ==>
                  total == consumptionMWh * (renewablePercentage / 100.0 * 46.0
                                             + (1.0 - renewablePercentage / 100.0) * 386.0) / 1000.0)
  {
  }

  /**
   * For a share in [0, 100] and non-negative consumption, the estimated
   * emissions lie between the all-solar and the all-grid figures, and a
   * larger renewable share never raises them.
   */
  lemma {:induction false} EstimateBoundsAndMonotone(consumptionMWh: real, p1: real, p2: real)
    requires consumptionMWh >= 0.0
    requires 0.0 <= p1 <= p2 <= 100.0
    ensures consumptionMWh * SolarIntensity / 1000.0 <= EstimatedTons(consumptionMWh, p1)
    ensures EstimatedTons(consumptionMWh, p1) <= consumptionMWh * GridAverageIntensity / 1000.0
    ensures EstimatedTons(consumptionMWh, p2) <= EstimatedTons(consumptionMWh, p1)
  {
    var f1 := 386.0 - 3.4 * p1;
    var f2 := 386.0 - 3.4 * p2;
    assert EstimatedTons(consumptionMWh, p1) == consumptionMWh * f1 / 1000.0;
    assert EstimatedTons(consumptionMWh, p2) == consumptionMWh * f2 / 1000.0;
    assert 46.0 <= f2 <= f1 <= 386.0;
    assert consumptionMWh * f2 <= consumptionMWh * f1;
    assert consumptionMWh * 46.0 <= consumptionMWh * f1 <= consumptionMWh * 386.0;
  }

  /**
   * `calculatePersonalFootprint`: a monthly kWh figure becomes an annual MWh
   * figure for a single household of average size, with no override.
   */
  function CalculatePersonalFootprint(monthlyKWhUsage: real, renewablePercentage: real): (e: Estimate)
    ensures e.householdCarbonTonsPerYear == EstimatedTons(monthlyKWhUsage * 12.0 / 1000.0, renewablePercentage)
    ensures e.perCapitaCarbonTonsPerYear * AvgHouseholdSize == e.householdCarbonTonsPerYear
  {
    var annualMWhUsage := (monthlyKWhUsage * 12.0) / 1000.0;
    CalculateCountyCarbonFootprint(annualMWhUsage, AvgHouseholdSize, renewablePercentage, None)
  }

  /**
   * `calculatePersonalFootprint` called without a renewable share: the
   * default 20% mix charges 318 kg per MWh (a fifth at 46, the rest at 386).
   */
  function CalculatePersonalFootprintAtDefaultMix(monthlyKWhUsage: real): (e: Estimate)
    ensures e.householdCarbonTonsPerYear == monthlyKWhUsage * 12.0 / 1000.0 * 318.0 / 1000.0
    ensures e.renewableImpactReduction == 20.0
  {
    CalculatePersonalFootprint(monthlyKWhUsage, DefaultRenewablePercentage)
  }

  /** The inputs the personal calculator accepts before it calls the service. */
  predicate ValidPersonalInput(monthlyKWhUsage: real, renewablePercentage: real) {
    monthlyKWhUsage > 0.0 && 0.0 <= renewablePercentage <= 100.0
  }

  /**
   * For accepted input the household footprint is positive and at most the
   * all-grid emissions of the annual usage.
   */
  lemma PersonalFootprintBounds(monthlyKWhUsage: real, renewablePercentage: real)
    requires ValidPersonalInput(monthlyKWhUsage, renewablePercentage)
    ensures var e := CalculatePersonalFootprint(monthlyKWhUsage, renewablePercentage);
            0.0 < e.householdCarbonTonsPerYear <= monthlyKWhUsage * 12.0 / 1000.0 * GridAverageIntensity / 1000.0
  {
    var annual := monthlyKWhUsage * 12.0 / 1000.0;
    EstimateBoundsAndMonotone(annual, renewablePercentage, renewablePercentage);
  }

  /** `calculateEfficiencyImpact`. */
  function CalculateEfficiencyImpact(currentConsumptionMWh: real, efficiencyPercentage: real,
                                     renewablePercentage: real): (r: EfficiencyImpact)
    ensures r.carMilesEquivalent == r.carbonSavedTons * TonsToCarMiles
    ensures efficiencyPercentage == 0.0 ==> r == EfficiencyImpact(0.0, 0.0, 0.0)
  {
    var energySavedMWh := currentConsumptionMWh * (efficiencyPercentage / 100.0);
    var renewableFraction := renewablePercentage / 100.0;
    var gridIntensityKg := (1.0 - renewableFraction) * GridAverageIntensity + renewableFraction * SolarIntensity;
    var carbonSavedTons := energySavedMWh * gridIntensityKg * KgToTons;
    var dollarsSaved := energySavedMWh * 1000.0 * DollarsPerKWh;
    EfficiencyImpact(carbonSavedTons, dollarsSaved, carbonSavedTons * TonsToCarMiles)
  }

  /**
   * The carbon saved by an efficiency measure is exactly the grid-estimated
   * emissions of the energy it saves, and the dollars saved are that energy
   * in kWh at 13 cents.
   */
  lemma EfficiencyMatchesEstimate(currentConsumptionMWh: real, efficiencyPercentage: real, renewablePercentage: real)
    ensures var saved := currentConsumptionMWh * (efficiencyPercentage / 100.0);
            var r := CalculateEfficiencyImpact(currentConsumptionMWh, efficiencyPercentage, renewablePercentage);
            && r.carbonSavedTons == EstimatedTons(saved, renewablePercentage)
            && r.dollarsSaved == saved * 1000.0 * 0.13
  {
  }
}

=== FILE: carbon_reduction.dfy ===
/**
 * The decision rules of the carbon-reduction dialog
 * (`src/components/CarbonReductionModal.tsx`): the season of the current
 * month, the county-specific list of immediate actions and the guard that
 * renders nothing while the dialog is closed. The texts of programmes,
 * tips and actions are static data and are reduced to their identities.
 */
module CarbonReduction {
  import opened Prelude
  import opened Domain

  datatype Season = Spring | Summer | Fall | Winter

  /** The months (0 = January) of each season: winter wraps around the year end. */
  function SeasonMonths(s: Season): set<int> {
    match s
    case Spring => {2, 3, 4}
    case Summer => {5, 6, 7}
    case Fall => {8, 9, 10}
    case Winter => {11, 0, 1}
  }

  /**
   * `getCurrentSeason` for the month `Date.getMonth()` returns: the ranges
   * of spring, summer and fall are checked in that order, and winter takes
   * everything else.
   */
  function GetCurrentSeason(month: int): (s: Season)
    requires 0 <= month < 12
    ensures month in SeasonMonths(s)
  {
    if 2 <= month <= 4 then Spring
    else if 5 <= month <= 7 then Summer
    else if 8 <= month <= 10 then Fall
    else Winter
  }

  /**
   * The four seasons partition the twelve months into threes, so every month
   * has exactly one season and each season is reported for exactly its own
   * three months.
   */
  lemma SeasonsPartitionYear(month: int, s: Season)
    requires 0 <= month < 12
    ensures GetCurrentSeason(month) == s <==> month in SeasonMonths(s)
    ensures |SeasonMonths(s)| == 3
    ensures SeasonMonths(Spring) + SeasonMonths(Summer) + SeasonMonths(Fall) + SeasonMonths(Winter)
            == {0, 1, 2, 3, 4, 5, 6, 7, 8, 9, 10, 11}
  {
    match s
    case Spring =>
    case Summer =>
    case Fall =>
    case Winter =>
  }

  /** One immediate action, identified by its title. */
  datatype Action = SwitchToRenewablePlan | ScheduleEnergyAudit | GetSolarQuotes | CheckCoolRoofRebates

  /** The position of an action in the order the list is built. */
  function Rank(a: Action): nat {
    match a
    case SwitchToRenewablePlan => 0
    case ScheduleEnergyAudit => 1
    case GetSolarQuotes => 2
    case CheckCoolRoofRebates => 3
  }

  /** Strictly increasing rank: no repeats, and the build order kept. */
  predicate InBuildOrder(xs: seq<Action>) {
    forall i, j :: 0 <= i < j < |xs| ==> Rank(xs[i]) < Rank(xs[j])
  }

  /** The county's cities include Phoenix or Tucson. */
  predicate InMajorMetro(c: County) {
    "Phoenix" in c.majorCities || "Tucson" in c.majorCities
  }

  /**
   * `getImmediateActions`: a renewable plan for a share below 20%, an audit
   * for more than 15 MWh per capita, solar quotes always, and cool-roof
   * rebates for Phoenix or Tucson, in that order.
   */
  function GetImmediateActions(c: County): (r: seq<Action>)
    ensures SwitchToRenewablePlan in r <==> c.renewablePercentage < 20.0
    ensures ScheduleEnergyAudit in r <==> c.consumptionPerCapita > 15.0
    ensures GetSolarQuotes in r
    ensures CheckCoolRoofRebates in r <==> InMajorMetro(c)
    ensures InBuildOrder(r)
    ensures 1 <= |r| <= 4
  {
    var renewable := if c.renewablePercentage < 20.0 then [SwitchToRenewablePlan] else [];
    var audit := if c.consumptionPerCapita > 15.0 then [ScheduleEnergyAudit] else [];
    var coolRoof := if InMajorMetro(c) then [CheckCoolRoofRebates] else [];
    renewable + audit + [GetSolarQuotes] + coolRoof
  }

  /**
   * Two lists in build order with the same actions are the same list, so the
   * four conditions above determine the action list completely.
   */
  lemma {:induction false} BuildOrderDeterminedByMembers(a: seq<Action>, b: seq<Action>)
    requires InBuildOrder(a) && InBuildOrder(b)
    requires forall x :: x in a <==> x in b
    ensures a == b
    decreases |a|
  {
    assert |a| > 0 ==> a[0] in b;
    assert |b| > 0 ==> b[0] in a;
    if |a| > 0 {
      assert a[0] == b[0] by {
        var k :| 0 <= k < |b| && b[k] == a[0];
        var l :| 0 <= l < |a| && a[l] == b[0];
        assert Rank(b[0]) <= Rank(b[k]) == Rank(a[0]);
        assert Rank(a[0]) <= Rank(a[l]) == Rank(b[0]);
      }
      forall x
        ensures x in a[1..] <==> x in b[1..]
      {
        if x in a[1..] {
          var k :| 1 <= k < |a| && a[k] == x;
          assert Rank(a[0]) < Rank(x);
          assert x in a && x in b;
          var l :| 0 <= l < |b| && b[l] == x;
          assert l != 0;
          assert b[1..][l - 1] == x;
        }
        if x in b[1..] {
          var k :| 1 <= k < |b| && b[k] == x;
          assert Rank(b[0]) < Rank(x);
          assert x in b && x in a;
          var l :| 0 <= l < |a| && a[l] == x;
          assert l != 0;
          assert a[1..][l - 1] == x;
        }
      }
      BuildOrderDeterminedByMembers(a[1..], b[1..]);
      assert a == [a[0]] + a[1..];
      assert b == [b[0]] + b[1..];
    }
  }

  /** What the open dialog works from: the season shown and the action list. */
  datatype ModalView = ModalView(season: Season, actions: seq<Action>)

  /**
   * The component: nothing while closed; otherwise the season of the current
   * month and the county's actions.
   */
  function CarbonReductionModal(c: County, isOpen: bool, month: int): (view: Option<ModalView>)
    requires 0 <= month < 12
    ensures view.None? <==> !isOpen
    ensures view.Some? ==> month in SeasonMonths(view.value.season) && GetSolarQuotes in view.value.actions
  {
    if !isOpen then None else Some(ModalView(GetCurrentSeason(month), GetImmediateActions(c)))
  }
}

=== FILE: day_cycle.dfy ===
/**
 * The simulated real-time feed shared by both versions of
 * `RealTimeDataService`: the hour-of-day classifiers (peak, night, the
 * consumption multiplier), the piecewise-linear solar-efficiency curve and
 * the update record built from them.
 *
 * The clock is split into the local hour (0..23), the day of the week
 * (0 = Sunday) and the time in milliseconds; `Math.random` draws are
 * parameters.
 */
module DayCycle {
  import opened Prelude
  import opened Domain

  /** Weekday afternoons, 14:00 to 18:59. */
  predicate IsPeakHour(hour: int, dayOfWeek: int) {
    14 <= hour <= 18 && 1 <= dayOfWeek <= 5
  }

  /** 22:00 to 06:59. */
  predicate IsNightTime(hour: int) {
    hour >= 22 || hour <= 6
  }

  /** Peak hours and night hours never overlap, so the order of the two overrides does not matter. */
  lemma PeakAndNightDisjoint(hour: int, dayOfWeek: int)
    ensures !(IsPeakHour(hour, dayOfWeek) && IsNightTime(hour))
  {
  }

  /**
   * The consumption multiplier: 1.0, overridden by 1.15 at peak and then by
   * 0.85 at night. Each value occurs exactly in its own period.
   */
  function ConsumptionMultiplier(hour: int, dayOfWeek: int): (m: real)
    ensures m == 1.15 <==> IsPeakHour(hour, dayOfWeek)
    ensures m == 0.85 <==> IsNightTime(hour)
    ensures m == 1.0 <==> !IsPeakHour(hour, dayOfWeek) && !IsNightTime(hour)
  {
    var base := 1.0;
    var afterPeak := if IsPeakHour(hour, dayOfWeek) then 1.15 else base;
    if IsNightTime(hour) then 0.85 else afterPeak
  }

  // ---------------------------------------------------------------------------
  // The solar curve

  /** The morning ramp, used on [6, 8]. */
  function MorningRamp(hour: real): real {
    (hour - 6.0) / 2.0 * 0.3
  }

  /** The rise to the peak, used on [8, 12]. */
  function MorningRise(hour: real): real {
    0.3 + ((hour - 8.0) / 4.0) * 0.7
  }

  /** The evening decline, used on [16, 19]. */
  function EveningDecline(hour: real): real {
    1.0 - ((hour - 16.0) / 3.0) * 1.0
  }

  /**
   * `calculateSolarEfficiency`: 0 outside [6, 19], the three linear pieces
   * and the plateau of 1.0 on [12, 16], checked in that order.
   */
  function SolarEfficiency(hour: real): (e: real)
    ensures 0.0 <= e <= 1.0
    ensures hour < 6.0 || hour > 19.0 ==> e == 0.0
    ensures 12.0 <= hour <= 16.0 ==> e == 1.0
    ensures e == 1.0 ==> 12.0 <= hour <= 16.0
  {
    if hour < 6.0 || hour > 19.0 then 0.0
    else if 6.0 <= hour <= 8.0 then MorningRamp(hour)
    else if 8.0 <= hour <= 12.0 then MorningRise(hour)
    else if 12.0 <= hour <= 16.0 then 1.0
    else if 16.0 <= hour <= 19.0 then EveningDecline(hour)
    else 0.0
  }

  /** Adjacent pieces meet at every breakpoint, so the curve has no jumps. */
  lemma SolarPiecesAgree()
    ensures MorningRamp(6.0) == 0.0
    ensures MorningRamp(8.0) == MorningRise(8.0)
    ensures MorningRise(12.0) == 1.0
    ensures EveningDecline(16.0) == 1.0
    ensures EveningDecline(19.0) == 0.0
  {
  }

  /** Efficiency never falls from 6:00 to noon and never rises from noon to 19:00. */
  lemma SolarRisesThenFalls(h1: real, h2: real)
    requires h1 <= h2
    ensures 6.0 <= h1 && h2 <= 12.0 ==> SolarEfficiency(h1) <= SolarEfficiency(h2)
    ensures 12.0 <= h1 && h2 <= 19.0 ==> SolarEfficiency(h2) <= SolarEfficiency(h1)
  {
  }

  // ---------------------------------------------------------------------------
  // The update record

  /** The two random draws of one county: consumption jitter and generation jitter. */
  datatype CountyDraws = CountyDraws(consumption: Unit, generation: Unit)

  /** The six draws of one update, in the order the source makes them. */
  datatype Draws = Draws(maricopa: CountyDraws, pima: CountyDraws, pinal: CountyDraws)

  /** The inputs of one fetch: what `new Date()` yields and the random draws. */
  datatype Clock = Clock(hour: int, dayOfWeek: int, now: int, draws: Draws)

  /**
   * One county's update from its expected consumption (base consumption
   * times the multiplier) and expected generation (capacity times solar
   * efficiency): consumption jittered by [0.95, 1.05), renewable generation
   * by [0.9, 1.1), both rounded.
   */
  function CountyUpdate(demand: real, supply: real, d: CountyDraws, stress: GridStress): (u: CountyRealTimeUpdate)
    requires demand >= 0.0 && supply >= 0.0
    ensures demand * 0.95 - 0.5 < u.currentConsumption as real <= demand * 1.05 + 0.5
    ensures supply * 0.9 - 0.5 < u.renewableGeneration as real <= supply * 1.1 + 0.5
    ensures u.gridStress == stress
  {
    var cj := 0.95 + d.consumption * 0.1;
    var gj := 0.9 + d.generation * 0.2;
    RoundScaled(demand, 0.95, cj, 1.05);
    RoundScaled(supply, 0.9, gj, 1.1);
    CountyRealTimeUpdate(Round(demand * cj), Round(supply * gj), stress)
  }

  /** Stress reported for Maricopa and Pima: High at peak, Low at night, else Normal. */
  function MetroStress(peak: bool, night: bool): GridStress {
    if peak then High else if night then Low else Normal
  }

  /** Stress reported for Pinal: Moderate at peak, else Normal. */
  function PinalStress(peak: bool): GridStress {
    if peak then Moderate else Normal
  }

  const PeakMessage: string := "Peak demand period - High solar generation"
  const NightMessage: string := "Low demand period - Battery storage active"
  const NormalMessage: string := "Normal operations"

  /** The state-wide message, chosen like the stress levels: peak first, then night. */
  function StatusMessage(peak: bool, night: bool): string {
    if peak then PeakMessage else if night then NightMessage else NormalMessage
  }

  /**
   * `fetchRealTimeUpdates`: the update for the hour, day and draws of `c`,
   * covering Maricopa, Pima and Pinal. The state's renewable share is 26.1%
   * scaled by solar efficiency and rounded to two decimals.
   */
  function FetchRealTimeUpdates(c: Clock): (d: RealTimeData)
    ensures d.timestamp == c.now
    ensures d.countyUpdates.Keys == {"Maricopa", "Pima", "Pinal"}
    ensures d.realTimeFactors.isPeakHour == IsPeakHour(c.hour, c.dayOfWeek)
    ensures d.realTimeFactors.isNightTime == IsNightTime(c.hour)
    ensures d.realTimeFactors.currentHour == c.hour
    ensures 0.0 <= d.stateMetrics.renewablePercentageNow <= 26.1
    ensures d.stateMetrics.renewablePercentageNow == 26.1 <==> 12 <= c.hour <= 16
    ensures d.stateMetrics.gridStatusMessage == PeakMessage <==> IsPeakHour(c.hour, c.dayOfWeek)
    ensures d.stateMetrics.gridStatusMessage == NightMessage <==> IsNightTime(c.hour)
    ensures IsPeakHour(c.hour, c.dayOfWeek) ==>
              && d.countyUpdates["Maricopa"].gridStress == High
              && d.countyUpdates["Pima"].gridStress == High
              && d.countyUpdates["Pinal"].gridStress == Moderate
    ensures IsNightTime(c.hour) ==>
              && d.countyUpdates["Maricopa"].gridStress == Low
              && d.countyUpdates["Pima"].gridStress == Low
              && d.countyUpdates["Pinal"].gridStress == Normal
    ensures 71800000.0 * 0.85 - 0.5 < d.stateMetrics.totalCurrentConsumption as real <= 71800000.0 * 1.15 + 0.5
    ensures d.realTimeFactors.consumptionMultiplier == ConsumptionMultiplier(c.hour, c.dayOfWeek)
    ensures d.realTimeFactors.solarEfficiency == SolarEfficiency(c.hour as real)
    ensures d.stateMetrics.totalCurrentConsumption == Round(71800000.0 * ConsumptionMultiplier(c.hour, c.dayOfWeek))
    ensures d.stateMetrics.renewablePercentageNow == Round(26.1 * SolarEfficiency(c.hour as real) * 100.0) as real / 100.0
    ensures !IsPeakHour(c.hour, c.dayOfWeek) && !IsNightTime(c.hour) ==>
              && d.stateMetrics.gridStatusMessage == NormalMessage
              && d.countyUpdates["Maricopa"].gridStress == Normal
              && d.countyUpdates["Pima"].gridStress == Normal
              && d.countyUpdates["Pinal"].gridStress == Normal
  {
    var peak := IsPeakHour(c.hour, c.dayOfWeek);
    var night := IsNightTime(c.hour);
    var multiplier := ConsumptionMultiplier(c.hour, c.dayOfWeek);
    var solar := SolarEfficiency(c.hour as real);
    var share := Round(26.1 * solar * 100.0);
    RoundWithin(26.1 * solar * 100.0, 0, 2610);
    assert share == 2610 ==> solar == 1.0;
    RoundMonotone(71800000.0 * 0.85, 71800000.0 * multiplier);
    RoundMonotone(71800000.0 * multiplier, 71800000.0 * 1.15);
    RealTimeData(
      c.now,
      RealTimeFactors(multiplier, solar, peak, night, c.hour),
      map[
        "Maricopa" := CountyUpdate(45200000.0 * multiplier, 3650.0 * solar, c.draws.maricopa, MetroStress(peak, night)),
        "Pima" := CountyUpdate(8200000.0 * multiplier, 1650.0 * solar, c.draws.pima, MetroStress(peak, night)),
        "Pinal" := CountyUpdate(3800000.0 * multiplier, 3200.0 * solar, c.draws.pinal, PinalStress(peak))
      ],
      StateRealTimeMetrics(Round(71800000.0 * multiplier), share as real / 100.0, StatusMessage(peak, night)))
  }

  /**
   * The documented poll at 15:00 on a weekday: the multiplier is 1.15, the
   * state consumes 82,570,000, solar runs at full efficiency, the share is
   * 26.1% and Maricopa reports High stress.
   */
  lemma WeekdayAfternoonPoll(c: Clock)
    requires c.hour == 15 && 1 <= c.dayOfWeek <= 5
    ensures var d := FetchRealTimeUpdates(c);
            && d.realTimeFactors.consumptionMultiplier == 1.15
            && d.realTimeFactors.solarEfficiency == 1.0
            && d.stateMetrics.totalCurrentConsumption == 82570000
            && d.stateMetrics.renewablePercentageNow == 26.1
            && d.stateMetrics.gridStatusMessage == PeakMessage
            && d.countyUpdates["Maricopa"].gridStress == High
  {
    assert IsPeakHour(c.hour, c.dayOfWeek);
    assert 71800000.0 * 1.15 == 82570000.0;
  }
}

=== FILE: domain.dfy ===
/**
 * The shared data types of the dashboard (`src/types/index.ts`): counties,
 * state totals, the real-time update record and the connection status.
 * Optional TypeScript properties become `Option` fields.
 */
module Domain {
  import opened Prelude
  import CarbonFootprint

  /** Grid stress as reported by the EIA client and the real-time feed. */
  datatype GridStress = Low | Normal | Moderate | High

  /** The position of a stress level on the scale Low < Normal < Moderate < High. */
  function StressRank(s: GridStress): nat {
    match s
    case Low => 0
    case Normal => 1
    case Moderate => 2
    case High => 3
  }

  /** A balancing authority (grid operator) serving Arizona. */
  datatype Authority = Azps | Srp | Walc

  datatype Coordinates = Coordinates(lat: real, lng: real)

  datatype County = County(
    name: string,
    consumptionMwh: real,
    population: real,
    majorCities: seq<string>,
    renewablePercentage: real,
    avgResidentialRate: real,
    primarySources: seq<string>,
    sustainabilityScore: real,
    carbonEmissionsTons: real,
    coordinates: Coordinates,
    consumptionPerCapita: real,
    renewableCapacityMw: real,
    // Real-time properties, set by the live merge.
    currentConsumption: Option<int>,
    currentRenewableGeneration: Option<int>,
    gridStress: Option<GridStress>,
    isRealTime: Option<bool>,
    // Added by the map when it enriches counties.
    carbonFootprint: Option<CarbonFootprint.Estimate>)

  datatype StateTotals = StateTotals(
    totalConsumption: real,
    totalPopulation: real,
    avgRenewablePercentage: real,
    totalEmissions: real,
    // Real-time properties, set by the live merge.
    currentConsumption: Option<int>,
    currentRenewablePercentage: Option<real>,
    gridStatus: Option<string>)

  datatype MapData = MapData(counties: seq<County>, stateTotals: StateTotals, dataSources: seq<string>)

  datatype RealTimeFactors = RealTimeFactors(
    consumptionMultiplier: real,
    solarEfficiency: real,
    isPeakHour: bool,
    isNightTime: bool,
    currentHour: int)

  datatype CountyRealTimeUpdate = CountyRealTimeUpdate(
    currentConsumption: int,
    renewableGeneration: int,
    gridStress: GridStress)

  datatype StateRealTimeMetrics = StateRealTimeMetrics(
    totalCurrentConsumption: int,
    renewablePercentageNow: real,
    gridStatusMessage: string)

  /** One real-time update; `timestamp` is the clock reading in milliseconds. */
  datatype RealTimeData = RealTimeData(
    timestamp: int,
    realTimeFactors: RealTimeFactors,
    countyUpdates: map<string, CountyRealTimeUpdate>,
    stateMetrics: StateRealTimeMetrics)

  datatype ConnectionStatus = ConnectionStatus(isConnected: bool, subscriberCount: nat, lastUpdate: int)
}

=== FILE: eia_api.dfy ===
/**
 * The EIA (U.S. Energy Information Administration) client
 * (`EIAApiService`): the configured/unconfigured gate, the 5-minute request
 * cache, the fold of hourly records into per-authority readings, grid
 * stress classification, county estimates and the residential-rate lookup.
 *
 * HTTP is abstracted: each request is represented by the response it
 * produced (status, text and parsed JSON, if the body parsed).
 */
module EiaApi {
  import opened Prelude
  import opened TtlCache
  import opened Domain

  /** The request-cache time-to-live: 5 minutes in milliseconds. */
  const CacheTimeout: int := 5 * 60 * 1000

  /** The rate returned whenever a configured rate lookup fails, in cents per kWh. */
  const FallbackRate: real := 13.5

  // ---------------------------------------------------------------------------
  // Records and their classification

  /**
   * One hourly record of the region-data endpoint. `value` is `None` when
   * the value is missing or not a number; the source then counts it as 0.
   */
  datatype Record = Record(respondent: string, typeCode: string, typeName: string, value: Option<real>)

  datatype Metric = DemandMetric | GenerationMetric | InterchangeMetric | OtherMetric

  /** ASCII lower-casing of one character. */
  function LowerChar(c: char): char {
    if 'A' <= c <= 'Z' then (c as int + 32) as char else c
  }

  function ToLower(s: string): (r: string)
    ensures |r| == |s|
  {
    seq(|s|, i requires 0 <= i < |s| => LowerChar(s[i]))
  }

  /** `String.prototype.includes`. */
  predicate Contains(s: string, sub: string)
    decreases |s|
  {
    |sub| <= |s| && (s[..|sub|] == sub || Contains(s[1..], sub))
  }

  /**
   * The record's metric. The type code is checked first and the type name
   * second, in the order demand, net generation, interchange.
   */
  function Classify(r: Record): Metric {
    var name := ToLower(r.typeName);
    if r.typeCode == "D" || Contains(name, "demand") then DemandMetric
    else if r.typeCode == "NG" || Contains(name, "net generation") then GenerationMetric
    else if r.typeCode == "TI" || Contains(name, "interchange") then InterchangeMetric
    else OtherMetric
  }

  /** The authority a record's lower-cased respondent names, if it is one of the two tracked ones. */
  function RespondentOf(r: Record): Option<Authority> {
    var ba := ToLower(r.respondent);
    if ba == "azps" then Some(Azps)
    else if ba == "srp" then Some(Srp)
    else None
  }

  /** `point.value || 0`. */
  function ValueOf(r: Record): real {
    r.value.GetOr(0.0)
  }

  // ---------------------------------------------------------------------------
  // The fold

  datatype Reading = Reading(demand: real, generation: real, interchange: real)

  const Zero: Reading := Reading(0.0, 0.0, 0.0)

  /** The readings of the two tracked authorities while the records are folded. */
  datatype Regions = Regions(azps: Reading, srp: Reading)

  /** One record applied to its authority's reading: max for demand and generation, sum for interchange. */
  function Absorb(reading: Reading, r: Record): Reading {
    match Classify(r)
    case DemandMetric => reading.(demand := Max(reading.demand, ValueOf(r)))
    case GenerationMetric => reading.(generation := Max(reading.generation, ValueOf(r)))
    case InterchangeMetric => reading.(interchange := reading.interchange + ValueOf(r))
    case OtherMetric => reading
  }

  /** The nested `forEach` of `processElectricityData`, records taken left to right. */
  function Fold(records: seq<Record>): Regions {
    if |records| == 0 then Regions(Zero, Zero)
    else
      var prior := Fold(records[..|records| - 1]);
      var r := records[|records| - 1];
      match RespondentOf(r)
      case Some(Azps) => prior.(azps := Absorb(prior.azps, r))
      case Some(Srp) => prior.(srp := Absorb(prior.srp, r))
      case _ => prior
  }

  /** An authority's reading; no record ever names WALC, so its reading stays zero. */
  function Region(g: Regions, a: Authority): Reading {
    match a
    case Azps => g.azps
    case Srp => g.srp
    case Walc => Zero
  }

  /** The last record changes only its own authority's reading. */
  lemma FoldLast(init: seq<Record>, last: Record, a: Authority)
    ensures Region(Fold(init + [last]), a)
            == if RespondentOf(last) == Some(a) then Absorb(Region(Fold(init), a), last) else Region(Fold(init), a)
  {
    var rs := init + [last];
    assert rs[..|rs| - 1] == init;
  }

  /** The responses' data arrays, one after another. */
  function Flatten(responses: seq<seq<Record>>): seq<Record> {
    if |responses| == 0 then [] else Flatten(responses[..|responses| - 1]) + responses[|responses| - 1]
  }

  // ---------------------------------------------------------------------------
  // An independent description of the fold's result

  /** Whether record `r` feeds metric `m` of authority `a`. */
  predicate Feeds(r: Record, a: Authority, m: Metric) {
    RespondentOf(r) == Some(a) && Classify(r) == m
  }

  /** The values (missing ones as 0) of the records feeding metric `m` of authority `a`, in order. */
  function MatchingValues(rs: seq<Record>, a: Authority, m: Metric): seq<real> {
    if |rs| == 0 then []
    else
      var last := rs[|rs| - 1];
      MatchingValues(rs[..|rs| - 1], a, m) + (if Feeds(last, a, m) then [ValueOf(last)] else [])
  }

  /** `d` is the largest of 0 and the values `xs`. */
  predicate IsMaxWithZero(d: real, xs: seq<real>) {
    && d >= 0.0
    && (forall i :: 0 <= i < |xs| ==> xs[i] <= d)
    && (d == 0.0 || d in xs)
  }

  function DemandOf(rd: Reading, m: Metric): real {
    if m == DemandMetric then rd.demand else rd.generation
  }

  /**
   * Demand and generation of each authority are the maximum of 0 and every
   * value feeding them; interchange is the sum of its values. Records of any
   * other respondent contribute nothing (respondents naming a key of the
   * processed record, such as `timestamp`, are outside the model).
   */
  lemma {:induction false} FoldIsMaxAndSum(rs: seq<Record>, a: Authority)
    ensures IsMaxWithZero(Region(Fold(rs), a).demand, MatchingValues(rs, a, DemandMetric))
    ensures IsMaxWithZero(Region(Fold(rs), a).generation, MatchingValues(rs, a, GenerationMetric))
    ensures Region(Fold(rs), a).interchange == Sum(MatchingValues(rs, a, InterchangeMetric))
  {
    if |rs| > 0 {
      var init := rs[..|rs| - 1];
      var last := rs[|rs| - 1];
      assert rs == init + [last];
      FoldIsMaxAndSum(init, a);
      FoldLast(init, last, a);
      MaxStep(init, last, a, DemandMetric);
      MaxStep(init, last, a, GenerationMetric);
      var xs := MatchingValues(init, a, InterchangeMetric);
      if Feeds(last, a, InterchangeMetric) {
        SumAppend(xs, [ValueOf(last)]);
        assert MatchingValues(rs, a, InterchangeMetric) == xs + [ValueOf(last)];
      } else {
        assert MatchingValues(rs, a, InterchangeMetric) == xs + [];
        assert xs + [] == xs;
      }
    }
  }

  lemma MaxStep(init: seq<Record>, last: Record, a: Authority, m: Metric)
    requires m == DemandMetric || m == GenerationMetric
    requires IsMaxWithZero(DemandOf(Region(Fold(init), a), m), MatchingValues(init, a, m))
    ensures IsMaxWithZero(DemandOf(Region(Fold(init + [last]), a), m), MatchingValues(init + [last], a, m))
  {
    var rs := init + [last];
    assert rs[..|rs| - 1] == init;
    FoldLast(init, last, a);
    var xs := MatchingValues(init, a, m);
    if Feeds(last, a, m) {
      assert MatchingValues(rs, a, m) == xs + [ValueOf(last)];
    } else {
      assert MatchingValues(rs, a, m) == xs + [];
    }
  }

  /** The two-record scenario: values 500 and 650 for the same demand resolve to 650, in either order. */
  lemma MaxWinsExample(r1: Record, r2: Record)
    requires Feeds(r1, Azps, DemandMetric) && Feeds(r2, Azps, DemandMetric)
    requires r1.value == Some(500.0) && r2.value == Some(650.0)
    ensures Fold([r1, r2]).azps.demand == 650.0
    ensures Fold([r2, r1]).azps.demand == 650.0
  {
    FoldLast([], r1, Azps);
    FoldLast([], r2, Azps);
    assert [] + [r1] == [r1];
    assert [] + [r2] == [r2];
    assert Region(Fold([r1]), Azps).demand == 500.0;
    assert Region(Fold([r2]), Azps).demand == 650.0;
    FoldLast([r1], r2, Azps);
    FoldLast([r2], r1, Azps);
    assert [r1] + [r2] == [r1, r2];
    assert [r2] + [r1] == [r2, r1];
  }

  // ---------------------------------------------------------------------------
  // Order independence

  function MergeReading(x: Reading, y: Reading): Reading {
    Reading(Max(x.demand, y.demand), Max(x.generation, y.generation), x.interchange + y.interchange)
  }

  function Combine(x: Regions, y: Regions): Regions {
    Regions(MergeReading(x.azps, y.azps), MergeReading(x.srp, y.srp))
  }

  predicate NonNegative(g: Regions) {
    g.azps.demand >= 0.0 && g.azps.generation >= 0.0 && g.srp.demand >= 0.0 && g.srp.generation >= 0.0
  }

  lemma {:induction false} FoldNonNegative(rs: seq<Record>)
    ensures NonNegative(Fold(rs))
  {
    if |rs| > 0 {
      FoldNonNegative(rs[..|rs| - 1]);
    }
  }

  /** Folding a concatenation combines the two folds. */
  lemma {:induction false} FoldAppend(a: seq<Record>, b: seq<Record>)
    ensures Fold(a + b) == Combine(Fold(a), Fold(b))
    decreases |b|
  {
    if |b| == 0 {
      assert a + b == a;
      FoldNonNegative(a);
    } else {
      var b' := b[..|b| - 1];
      assert (a + b)[..|a + b| - 1] == a + b';
      assert (a + b)[|a + b| - 1] == b[|b| - 1];
      FoldAppend(a, b');
    }
  }

  /** Combining is insensitive to the order in which a third reading set is merged in. */
  lemma CombineSwap(p: Regions, q: Regions, r: Regions)
    ensures Combine(Combine(p, q), r) == Combine(Combine(p, r), q)
  {
  }

  /** Removing one occurrence of `b[k]` from `b` leaves the multiset of `a` without that element. */
  lemma RemoveOne(a: seq<Record>, b: seq<Record>, k: int)
    requires |a| > 0 && multiset(a) == multiset(b)
    requires 0 <= k < |b| && b[k] == a[|a| - 1]
    ensures multiset(a[..|a| - 1]) == multiset(b[..k] + b[k + 1..])
  {
    var x := a[|a| - 1];
    assert a == a[..|a| - 1] + [x];
    assert b == b[..k] + [x] + b[k + 1..];
    assert multiset(a[..|a| - 1]) == multiset(a) - multiset{x};
    assert multiset(b[..k] + b[k + 1..]) == multiset(b) - multiset{x};
  }

  /**
   * The fold does not depend on the order of the records: any two record
   * sequences holding the same records give the same readings.
   */
  lemma {:induction false} FoldPermutationInvariant(a: seq<Record>, b: seq<Record>)
    requires multiset(a) == multiset(b)
    ensures Fold(a) == Fold(b)
    decreases |a|
  {
    if |a| == 0 {
      assert |b| == |multiset(b)| == 0;
    } else {
      var x := a[|a| - 1];
      var a' := a[..|a| - 1];
      assert a == a' + [x];
      assert x in multiset(b);
      var k :| 0 <= k < |b| && b[k] == x;
      var left, right := b[..k], b[k + 1..];
      assert b == left + [x] + right;
      RemoveOne(a, b, k);
      FoldPermutationInvariant(a', left + right);
      FoldAppend(a', [x]);
      FoldAppend(left + [x], right);
      FoldAppend(left, [x]);
      FoldAppend(left, right);
      CombineSwap(Fold(left), Fold([x]), Fold(right));
    }
  }

  // ---------------------------------------------------------------------------
  // processElectricityData

  datatype Totals = Totals(totalDemand: real, totalGeneration: real, totalInterchange: real)

  /** `ProcessedElectricityData`; `timestamp` is the processing time in milliseconds. */
  datatype Processed = Processed(timestamp: int, azps: Reading, srp: Reading, stateTotal: Totals)

  /** The state totals are the sums of the two authorities' readings. */
  predicate TotalsConsistent(p: Processed) {
    && p.stateTotal.totalDemand == p.azps.demand + p.srp.demand
    && p.stateTotal.totalGeneration == p.azps.generation + p.srp.generation
    && p.stateTotal.totalInterchange == p.azps.interchange + p.srp.interchange
  }

  function ProcessElectricityData(responses: seq<seq<Record>>, now: int): (p: Processed)
    ensures TotalsConsistent(p)
    ensures p.timestamp == now
    ensures p.azps.demand >= 0.0 && p.azps.generation >= 0.0
    ensures p.srp.demand >= 0.0 && p.srp.generation >= 0.0
    ensures p.azps == Fold(Flatten(responses)).azps && p.srp == Fold(Flatten(responses)).srp
    ensures var rs := Flatten(responses);
            && IsMaxWithZero(p.azps.demand, MatchingValues(rs, Azps, DemandMetric))
            && IsMaxWithZero(p.azps.generation, MatchingValues(rs, Azps, GenerationMetric))
            && p.azps.interchange == Sum(MatchingValues(rs, Azps, InterchangeMetric))
    ensures var rs := Flatten(responses);
            && IsMaxWithZero(p.srp.demand, MatchingValues(rs, Srp, DemandMetric))
            && IsMaxWithZero(p.srp.generation, MatchingValues(rs, Srp, GenerationMetric))
            && p.srp.interchange == Sum(MatchingValues(rs, Srp, InterchangeMetric))
  {
    var rs := Flatten(responses);
    var g := Fold(rs);
    FoldNonNegative(rs);
    FoldIsMaxAndSum(rs, Azps);
    FoldIsMaxAndSum(rs, Srp);
    assert Region(g, Azps) == g.azps && Region(g, Srp) == g.srp;
    Processed(now, g.azps, g.srp,
              Totals(g.azps.demand + g.srp.demand,
                     g.azps.generation + g.srp.generation,
                     g.azps.interchange + g.srp.interchange))
  }

  /**
   * Processing does not depend on the order of responses or of the records
   * inside them: the AZPS-first and SRP-first orders give the same data.
   */
  lemma ProcessOrderIndependent(r1: seq<seq<Record>>, r2: seq<seq<Record>>, now: int)
    requires multiset(Flatten(r1)) == multiset(Flatten(r2))
    ensures ProcessElectricityData(r1, now) == ProcessElectricityData(r2, now)
  {
    FoldPermutationInvariant(Flatten(r1), Flatten(r2));
  }

  // ---------------------------------------------------------------------------
  // Grid stress

  /**
   * `calculateGridStress`: the utilisation ratio is demand over generation,
   * or over demand when generation is 0. When both are 0 the ratio is
   * `NaN`, every comparison fails and the result is Low.
   */
  function CalculateGridStress(demand: real, generation: real): GridStress {
    var denominator := if generation != 0.0 then generation else demand;
    if denominator == 0.0 then Low
    else
      var ratio := demand / denominator;
      if ratio > 0.9 then High
      else if ratio > 0.75 then Moderate
      else if ratio > 0.5 then Normal
      else Low
  }

  /**
   * For positive generation, the level is decided by demand against fixed
   * fractions of generation, with no division.
   */
  lemma GridStressThresholds(demand: real, generation: real)
    requires generation > 0.0
    ensures CalculateGridStress(demand, generation) == High <==> demand > 0.9 * generation
    ensures CalculateGridStress(demand, generation) == Moderate <==> 0.75 * generation < demand <= 0.9 * generation
    ensures CalculateGridStress(demand, generation) == Normal <==> 0.5 * generation < demand <= 0.75 * generation
    ensures CalculateGridStress(demand, generation) == Low <==> demand <= 0.5 * generation
  {
    var ratio := demand / generation;
    RatioAbove(demand, generation, 0.9);
    RatioAbove(demand, generation, 0.75);
    RatioAbove(demand, generation, 0.5);
  }

  lemma RatioAbove(demand: real, generation: real, t: real)
    requires generation > 0.0
    ensures demand / generation > t <==> demand > t * generation
  {
    var ratio := demand / generation;
    assert demand - t * generation == (ratio - t) * generation;
    if ratio > t {
      assert (ratio - t) * generation > 0.0;
    } else {
      assert (ratio - t) * generation <= 0.0;
    }
  }

  /** Zero generation with non-zero demand gives ratio 1, hence High; zero of both gives Low. */
  lemma ZeroGenerationStress(demand: real)
    ensures demand != 0.0 ==> CalculateGridStress(demand, 0.0) == High
    ensures CalculateGridStress(0.0, 0.0) == Low
  {
  }

  /** With generation fixed and positive, more demand never lowers the stress level. */
  lemma GridStressMonotone(d1: real, d2: real, generation: real)
    requires generation > 0.0 && d1 <= d2
    ensures StressRank(CalculateGridStress(d1, generation)) <= StressRank(CalculateGridStress(d2, generation))
  {
    GridStressThresholds(d1, generation);
    GridStressThresholds(d2, generation);
  }

  // ---------------------------------------------------------------------------
  // County estimates

  /** The authority serving a county, the share it serves, and the county's population. */
  datatype ServiceShare = ServiceShare(authority: Authority, share: real, population: int)

  const CountyMappings: map<string, ServiceShare> := map[
    "Maricopa" := ServiceShare(Azps, 0.7, 4485414),
    "Pima" := ServiceShare(Azps, 0.3, 1043433),
    "Pinal" := ServiceShare(Azps, 0.8, 425264),
    "Yavapai" := ServiceShare(Azps, 0.6, 236209),
    "Gila" := ServiceShare(Srp, 0.4, 53272)
  ]

  datatype CountyEstimate = CountyEstimate(
    currentConsumption: int,
    currentGeneration: int,
    gridStress: GridStress,
    lastUpdated: int,
    isRealTime: bool)

  /** The slot of the processed data named by an authority; there is no WALC slot. */
  function Slot(p: Processed, a: Authority): Option<Reading> {
    match a
    case Azps => Some(p.azps)
    case Srp => Some(p.srp)
    case Walc => None
  }

  /**
   * One county's estimate: for a tracked authority, its reading scaled by
   * the county's share (MW to kWh, rounded) and its stress level; for an
   * untracked authority, the zero, non-real-time placeholder.
   */
  function EstimateFor(p: Processed, m: ServiceShare): (e: CountyEstimate)
    ensures e.lastUpdated == p.timestamp
    ensures e.isRealTime <==> m.authority != Walc
    ensures m.authority != Walc ==>
              var rd := Slot(p, m.authority).value;
              && rd.demand * m.share * 1000.0 - 0.5 < e.currentConsumption as real <= rd.demand * m.share * 1000.0 + 0.5
              && rd.generation * m.share * 1000.0 - 0.5 < e.currentGeneration as real <= rd.generation * m.share * 1000.0 + 0.5
              && e.gridStress == CalculateGridStress(rd.demand, rd.generation)
    ensures m.authority == Walc ==> e == CountyEstimate(0, 0, Low, p.timestamp, false)
  {
    match Slot(p, m.authority)
    case Some(rd) =>
      CountyEstimate(Round(rd.demand * m.share * 1000.0), Round(rd.generation * m.share * 1000.0),
                     CalculateGridStress(rd.demand, rd.generation), p.timestamp, true)
    case None => CountyEstimate(0, 0, Low, p.timestamp, false)
  }

  /** Every county of the table is served by a tracked authority. */
  lemma MappingsTracked()
    ensures forall c :: c in CountyMappings ==> CountyMappings[c].authority != Walc
  {
  }

  /** `mapBalancingAuthorityToCounties`: one estimate per listed county, each from its authority's reading. */
  function MapBalancingAuthorityToCounties(p: Processed): (r: map<string, CountyEstimate>)
    ensures r.Keys == CountyMappings.Keys
    ensures forall c :: c in r ==> r[c] == EstimateFor(p, CountyMappings[c])
  {
    map c | c in CountyMappings :: EstimateFor(p, CountyMappings[c])
  }

  /** Every county estimate derived from processed data is real-time and stamped with its time. */
  lemma CountyEstimatesAreRealTime(p: Processed)
    ensures forall c :: c in MapBalancingAuthorityToCounties(p) ==>
              MapBalancingAuthorityToCounties(p)[c].isRealTime
              && MapBalancingAuthorityToCounties(p)[c].lastUpdated == p.timestamp
  {
    MappingsTracked();
  }

  // ---------------------------------------------------------------------------
  // The service: configuration gate and cache

  /**
   * The client's state: its API key (empty when unconfigured) and the two
   * cache slots, one for each of the fixed cache keys
   * 'arizona-electricity-data' and 'arizona-residential-rate'.
   */
  datatype EiaService = EiaService(apiKey: string, electricity: Option<Entry<Processed>>, rate: Option<Entry<real>>)

  /** The constructor: the key from the environment, or '' when it is unset or empty. */
  function NewEiaService(envKey: Option<string>): EiaService {
    EiaService(envKey.GetOr(""), None, None)
  }

  /** Every cached snapshot has state totals that are the sums of its authorities. */
  predicate Valid(s: EiaService) {
    s.electricity.Some? ==> TotalsConsistent(s.electricity.value.data)
  }

  /** `isConfigured`: `!!this.apiKey`. */
  predicate IsConfigured(s: EiaService) {
    s.apiKey != ""
  }

  /** The service is configured exactly when the environment supplies a non-empty key. */
  lemma ConfiguredIffKeyPresent(envKey: Option<string>)
    ensures IsConfigured(NewEiaService(envKey)) <==> envKey.Some? && envKey.value != ""
  {
  }

  /** `clearCache`. */
  function ClearCache(s: EiaService): (r: EiaService)
    ensures r.apiKey == s.apiKey
    ensures forall now: int :: Serve(r.electricity, now, CacheTimeout) == None && Serve(r.rate, now, CacheTimeout) == None
  {
    EiaService(s.apiKey, None, None)
  }

  // ---------------------------------------------------------------------------
  // Upstream responses

  /** An HTTP response: its status, its text and its JSON body when the body parsed. */
  datatype HttpResponse<T> = HttpResponse(status: int, text: string, json: Option<T>)

  /** `response.ok`. */
  predicate Ok<T>(r: HttpResponse<T>) {
    200 <= r.status <= 299
  }

  datatype ResponseBody = ResponseBody(data: Option<seq<Record>>)

  /** The JSON envelope `{response: {data: [...] , ...}}`, either level possibly missing. */
  datatype Envelope = Envelope(response: Option<ResponseBody>)

  /** The envelope check: both `response` and `response.data` are present. */
  predicate WellFormed(e: Envelope) {
    e.response.Some? && e.response.value.data.Some?
  }

  datatype UpstreamError = RequestFailed(status: int, text: string) | MalformedJson | InvalidResponseFormat

  datatype EiaError = NotConfigured | FetchFailed(cause: UpstreamError)

  /** `fetchBalancingAuthorityData` after the request: status check, JSON parse, envelope check. */
  function FetchBalancingAuthorityData(r: HttpResponse<Envelope>): (res: Result<seq<Record>, UpstreamError>)
    ensures res.Success? <==> Ok(r) && r.json.Some? && WellFormed(r.json.value)
    ensures res.Success? ==> res.value == r.json.value.response.value.data.value
    ensures !Ok(r) ==> res == Failure(RequestFailed(r.status, r.text))
  {
    if !Ok(r) then Failure(RequestFailed(r.status, r.text))
    else match r.json
      case None => Failure(MalformedJson)
      case Some(e) => if WellFormed(e) then Success(e.response.value.data.value) else Failure(InvalidResponseFormat)
  }

  /** A call's result together with the client state after it. */
  datatype Outcome<T> = Outcome(result: Result<T, EiaError>, service: EiaService)

  /**
   * `fetchArizonaElectricityData`. `now` is the time of the cache check,
   * `doneAt` the time both responses have arrived. Unconfigured: the
   * configuration error, before any cache lookup or request. A fresh cache
   * entry is returned as is. Otherwise both authorities are fetched; any
   * failure fails the whole call and leaves the cache alone, and success
   * processes both responses and replaces the cache entry.
   * When both requests fail, `Promise.all` rejects with whichever failure
   * settles first; with no interleaving of requests modelled, the model
   * reports the AZPS failure.
   */
  function FetchArizonaElectricityData(s: EiaService, now: int, azps: HttpResponse<Envelope>,
                                       srp: HttpResponse<Envelope>, doneAt: int): (o: Outcome<Processed>)
    ensures !IsConfigured(s) ==> o == Outcome(Failure(NotConfigured), s)
    ensures IsConfigured(s) && Serve(s.electricity, now, CacheTimeout).Some? ==>
              o == Outcome(Success(s.electricity.value.data), s)
    ensures o.result.Failure? ==> o.service == s
    ensures o.service.apiKey == s.apiKey && o.service.rate == s.rate
    ensures o.service != s ==> o.result.Success? && o.service.electricity == Some(Entry(o.result.value, doneAt))
    ensures IsConfigured(s) && Serve(s.electricity, now, CacheTimeout).None? ==>
              (o.result.Success? <==> FetchBalancingAuthorityData(azps).Success? && FetchBalancingAuthorityData(srp).Success?)
    ensures Valid(s) ==> Valid(o.service) && (o.result.Success? ==> TotalsConsistent(o.result.value))
    ensures IsConfigured(s) && Serve(s.electricity, now, CacheTimeout).None?
            && FetchBalancingAuthorityData(azps).Success? && FetchBalancingAuthorityData(srp).Success? ==>
              o.result == Success(ProcessElectricityData([FetchBalancingAuthorityData(azps).value,
                                                          FetchBalancingAuthorityData(srp).value], doneAt))
  {
    if !IsConfigured(s) then Outcome(Failure(NotConfigured), s)
    else match Serve(s.electricity, now, CacheTimeout)
      case Some(cached) => Outcome(Success(cached), s)
      case None =>
        match (FetchBalancingAuthorityData(azps), FetchBalancingAuthorityData(srp))
        case (Success(a), Success(b)) =>
          var processed := ProcessElectricityData([a, b], doneAt);
          Outcome(Success(processed), s.(electricity := Some(Entry(processed, doneAt))))
        case (Failure(e), _) => Outcome(Failure(FetchFailed(e)), s)
        case (_, Failure(e)) => Outcome(Failure(FetchFailed(e)), s)
  }

  /**
   * A successful fetch is served back, without any request, to every call
   * made less than 5 minutes after it, whatever the responses would have been;
   * at exactly 5 minutes the cache misses and the new responses are used.
   */
  lemma ElectricityCacheRoundTrip(s: EiaService, now: int, a1: HttpResponse<Envelope>, b1: HttpResponse<Envelope>,
                                  doneAt: int, later: int, a2: HttpResponse<Envelope>, b2: HttpResponse<Envelope>, doneAt2: int)
    requires IsConfigured(s)
    requires Serve(s.electricity, now, CacheTimeout).None?
    requires FetchArizonaElectricityData(s, now, a1, b1, doneAt).result.Success?
    ensures var first := FetchArizonaElectricityData(s, now, a1, b1, doneAt);
            var second := FetchArizonaElectricityData(first.service, later, a2, b2, doneAt2);
            && (later - doneAt < CacheTimeout ==> second == Outcome(first.result, first.service))
            && (later == doneAt + CacheTimeout ==>
                  second.result == FetchArizonaElectricityData(ClearCache(s), later, a2, b2, doneAt2).result)
  {
  }

  /** The rate body: the first record's price, `None` when any level is missing or the price parses to `NaN`. */
  datatype RatePayload = RatePayload(price: Option<real>)

  /**
   * `fetchArizonaResidentialRateData`. Unconfigured: the configuration error
   * (thrown before the `try`, so not replaced by the fallback). Configured:
   * never fails; a fresh cached rate, else a freshly parsed rate (which is
   * cached), else 13.5 with the cache unchanged.
   */
  function FetchArizonaResidentialRateData(s: EiaService, now: int, response: HttpResponse<RatePayload>,
                                           doneAt: int): (o: Outcome<real>)
    ensures !IsConfigured(s) ==> o == Outcome(Failure(NotConfigured), s)
    ensures IsConfigured(s) ==> o.result.Success?
    ensures IsConfigured(s) && Serve(s.rate, now, CacheTimeout).Some? ==> o == Outcome(Success(s.rate.value.data), s)
    ensures o.service.apiKey == s.apiKey && o.service.electricity == s.electricity
    ensures o.service != s ==> o.result.Success? && o.service.rate == Some(Entry(o.result.value, doneAt))
    ensures IsConfigured(s) && Serve(s.rate, now, CacheTimeout).None? ==>
              if Ok(response) && response.json.Some? && response.json.value.price.Some?
              then o.result == Success(response.json.value.price.value)
              else o == Outcome(Success(FallbackRate), s)
    ensures IsConfigured(s) && Serve(s.rate, now, CacheTimeout).None?
            && Ok(response) && response.json.Some? && response.json.value.price.Some? ==>
              o.service.rate == Some(Entry(response.json.value.price.value, doneAt))
  {
    if !IsConfigured(s) then Outcome(Failure(NotConfigured), s)
    else match Serve(s.rate, now, CacheTimeout)
      case Some(cached) => Outcome(Success(cached), s)
      case None =>
        if !Ok(response) || response.json.None? || response.json.value.price.None? then
          Outcome(Success(FallbackRate), s)
        else
          var rate := response.json.value.price.value;
          Outcome(Success(rate), s.(rate := Some(Entry(rate, doneAt))))
  }

  /**
   * A parsed rate is served back, whatever the later response says, to every
   * call made less than 5 minutes after it; at exactly 5 minutes the cache
   * misses and the later response decides, as on an empty cache.
   */
  lemma RateCacheRoundTrip(s: EiaService, now: int, response: HttpResponse<RatePayload>, doneAt: int,
                           later: int, response2: HttpResponse<RatePayload>, doneAt2: int)
    requires IsConfigured(s)
    requires Serve(s.rate, now, CacheTimeout).None?
    requires Ok(response) && response.json.Some? && response.json.value.price.Some?
    ensures var first := FetchArizonaResidentialRateData(s, now, response, doneAt);
            var second := FetchArizonaResidentialRateData(first.service, later, response2, doneAt2);
            && first.result == Success(response.json.value.price.value)
            && (later - doneAt < CacheTimeout ==> second == Outcome(first.result, first.service))
            && (later == doneAt + CacheTimeout ==>
                  second.result == FetchArizonaResidentialRateData(ClearCache(s), later, response2, doneAt2).result)
  {
  }
}

=== FILE: electricity_map.dfy ===
/**
 * The data logic of the map view (`src/ElectricityMap.tsx`): colouring a
 * county by its position in the range of a metric, folding a real-time
 * update into the map data without mutating it, attaching carbon-footprint
 * estimates to every county and sizing the county markers.
 */
module ElectricityMap {
  import opened Prelude
  import opened Domain
  import CarbonFootprint
  import DayCycle

  /** The map style: which county figure drives the colour. */
  datatype Metric = Consumption | Renewable | Sustainability

  /** The figure a county is coloured by under `metric`. */
  function MetricValue(c: County, metric: Metric): real {
    match metric
    case Consumption => c.consumptionPerCapita
    case Renewable => c.renewablePercentage
    case Sustainability => c.sustainabilityScore
  }

  /** The metric of every county, in county order. */
  function Values(counties: seq<County>, metric: Metric): (vs: seq<real>)
    ensures |vs| == |counties|
    ensures forall i :: 0 <= i < |vs| ==> vs[i] == MetricValue(counties[i], metric)
  {
    seq(|counties|, i requires 0 <= i < |counties| => MetricValue(counties[i], metric))
  }

  const NoDataColor: string := "#94a3b8"
  const FlatColor: string := "#ca8a04"

  /** Red to green: low renewable share or sustainability is red. */
  const RenewablePalette: seq<string> := ["#dc2626", "#ea580c", "#ca8a04", "#65a30d", "#059669"]

  /** Green to red: the consumption list before the source reverses it. */
  const GreenToRed: seq<string> := ["#059669", "#65a30d", "#ca8a04", "#ea580c", "#dc2626"]

  /** `Array.prototype.reverse`. */
  function Reverse<T>(s: seq<T>): (r: seq<T>)
    ensures |r| == |s|
    ensures forall i :: 0 <= i < |s| ==> r[i] == s[|s| - 1 - i]
  {
    if |s| == 0 then [] else [s[|s| - 1]] + Reverse(s[..|s| - 1])
  }

  /** The consumption palette as written: the green-to-red list, reversed. */
  function ConsumptionPaletteAsWritten(): seq<string> {
    Reverse(GreenToRed)
  }

  /** After the reversal the consumption palette is the renewable palette, colour for colour. */
  lemma ReversedPaletteIsRenewable()
    ensures ConsumptionPaletteAsWritten() == RenewablePalette
  {
    var r := ConsumptionPaletteAsWritten();
    assert r[0] == "#dc2626" && r[1] == "#ea580c" && r[2] == "#ca8a04" && r[3] == "#65a30d" && r[4] == "#059669";
  }

  /** The palette of each metric as written: after the reversal every metric runs red to green. */
  function PaletteAsWritten(metric: Metric): (p: seq<string>)
    ensures p == RenewablePalette
  {
    ReversedPaletteIsRenewable();
    if metric == Renewable || metric == Sustainability then RenewablePalette else ConsumptionPaletteAsWritten()
  }

  /** The intended palettes: consumption runs green (low) to red (high), the others red to green. */
  function Palette(metric: Metric): (p: seq<string>)
    ensures |p| == 5
    ensures p[0] != p[4]
  {
    if metric == Renewable || metric == Sustainability then RenewablePalette else GreenToRed
  }

  /**
   * The colour band of a normalised position: thresholds 0.2, 0.4, 0.6 and
   * 0.8, each inclusive at the top. Band `r` holds the positions in
   * (0.2 r, 0.2 (r + 1)], the first band extending down and the last up
   * without limit.
   */
  function Bucket(n: real): (r: nat)
    ensures r < 5
    ensures r > 0 ==> n > 0.2 * r as real
    ensures r < 4 ==> n <= 0.2 * (r + 1) as real
  {
    if n <= 0.2 then 0
    else if n <= 0.4 then 1
    else if n <= 0.6 then 2
    else if n <= 0.8 then 3
    else 4
  }

  /** A larger position never falls into a lower band. */
  lemma BucketMonotone(n1: real, n2: real)
    requires n1 <= n2
    ensures Bucket(n1) <= Bucket(n2)
  {
  }

  /** Division by a positive range keeps the order. */
  lemma DivideMonotone(x: real, y: real, d: real)
    requires x <= y && d > 0.0
    ensures x / d <= y / d
  {
    assert y / d - x / d == (y - x) / d;
    assert (y - x) / d * d == y - x;
  }

  /** The county metrics, when there is a map with counties. */
  predicate HasData(mapData: Option<MapData>) {
    mapData.Some? && |mapData.value.counties| > 0
  }

  /** The position of `v` in the range of the metric: 0 at the minimum, 1 at the maximum. */
  function Normalized(lo: real, hi: real, v: real): real
    requires lo != hi
  {
    (v - lo) / (hi - lo)
  }

  /** The colour computation shared by both palettes. */
  function ColorWith(mapData: Option<MapData>, value: Option<real>, palette: seq<string>, metric: Metric): (color: string)
    requires |palette| == 5
    ensures !HasData(mapData) || value.None? ==> color == NoDataColor
    ensures HasData(mapData) && value.Some? ==> color == FlatColor || color in palette
    ensures HasData(mapData) && value.Some? && SeqMin(Values(mapData.value.counties, metric)) != SeqMax(Values(mapData.value.counties, metric))
            ==> color == palette[Bucket(Normalized(SeqMin(Values(mapData.value.counties, metric)), SeqMax(Values(mapData.value.counties, metric)), value.value))]
  {
    if !HasData(mapData) || value.None? then NoDataColor
    else
      var vs := Values(mapData.value.counties, metric);
      var lo := SeqMin(vs);
      var hi := SeqMax(vs);
      if hi - lo == 0.0 then FlatColor
      else palette[Bucket(Normalized(lo, hi, value.value))]
  }

  /** `getColorByValue` as written, with the reversed consumption palette. */
  function GetColorByValueAsWritten(mapData: Option<MapData>, value: Option<real>, metric: Metric): (color: string)
    ensures color == NoDataColor <==> !HasData(mapData) || value.None?
    ensures HasData(mapData) && value.Some? ==> color in PaletteAsWritten(metric)
  {
    ColorWith(mapData, value, PaletteAsWritten(metric), metric)
  }

  /**
   * `getColorByValue` with the consumption palette running green to red:
   * grey without a map, counties or value; amber when every county has the
   * same figure; otherwise the palette colour of the value's band.
   */
  function GetColorByValue(mapData: Option<MapData>, value: Option<real>, metric: Metric): (color: string)
    ensures color == NoDataColor <==> !HasData(mapData) || value.None?
    ensures HasData(mapData) && value.Some? ==> color in Palette(metric)
    ensures HasData(mapData) && value.Some?
            && SeqMin(Values(mapData.value.counties, metric)) == SeqMax(Values(mapData.value.counties, metric))
            ==> color == FlatColor
  {
    ColorWith(mapData, value, Palette(metric), metric)
  }

  /**
   * With a spread of figures, the colour is the palette entry of the value's
   * band; the band never falls as the value grows, the smallest figure gets
   * the first colour and the largest the last.
   */
  lemma {:induction false} ColorFollowsRank(mapData: Option<MapData>, metric: Metric, v1: real, v2: real)
    requires HasData(mapData)
    requires SeqMin(Values(mapData.value.counties, metric)) != SeqMax(Values(mapData.value.counties, metric))
    requires v1 <= v2
    ensures var vs := Values(mapData.value.counties, metric);
            && GetColorByValue(mapData, Some(v1), metric) == Palette(metric)[Bucket(Normalized(SeqMin(vs), SeqMax(vs), v1))]
            && Bucket(Normalized(SeqMin(vs), SeqMax(vs), v1)) <= Bucket(Normalized(SeqMin(vs), SeqMax(vs), v2))
            && GetColorByValue(mapData, Some(SeqMin(vs)), metric) == Palette(metric)[0]
            && GetColorByValue(mapData, Some(SeqMax(vs)), metric) == Palette(metric)[4]
  {
    var vs := Values(mapData.value.counties, metric);
    assert SeqMin(vs) <= vs[0] <= SeqMax(vs);
    UnitScale(SeqMin(vs), SeqMax(vs), v1, v2);
    BucketMonotone(Normalized(SeqMin(vs), SeqMax(vs), v1), Normalized(SeqMin(vs), SeqMax(vs), v2));
  }

  /** Scaling [lo, hi] onto [0, 1] sends the ends to 0 and 1 and keeps the order. */
  lemma UnitScale(lo: real, hi: real, v1: real, v2: real)
    requires lo < hi && v1 <= v2
    ensures Normalized(lo, hi, lo) == 0.0
    ensures Normalized(lo, hi, hi) == 1.0
    ensures Normalized(lo, hi, v1) <= Normalized(lo, hi, v2)
  {
    DivideMonotone(v1 - lo, v2 - lo, hi - lo);
    DivideSelf(hi - lo);
  }

  /** A positive number divided by itself is 1. */
  lemma DivideSelf(d: real)
    requires d > 0.0
    ensures d / d == 1.0
  {
    var q := d / d;
    assert q * d == d;
    assert (q - 1.0) * d == 0.0;
  }

  /** The consumption legend: each colour and the label it is shown with. */
  function ConsumptionLegendLabel(color: string): (shown: Option<string>)
    ensures shown.Some? <==> color in GreenToRed
  {
    if color == "#dc2626" then Some("Very High")
    else if color == "#ea580c" then Some("High")
    else if color == "#ca8a04" then Some("Moderate")
    else if color == "#65a30d" then Some("Low")
    else if color == "#059669" then Some("Very Low")
    else None
  }

  /**
   * As written, the county with the lowest consumption per capita is drawn
   * in the colour the legend calls "Very High", and the highest in "Very Low".
   */
  lemma AsWrittenConsumptionLegendInverted(mapData: Option<MapData>)
    requires HasData(mapData)
    requires SeqMin(Values(mapData.value.counties, Consumption)) != SeqMax(Values(mapData.value.counties, Consumption))
    ensures var vs := Values(mapData.value.counties, Consumption);
            && ConsumptionLegendLabel(GetColorByValueAsWritten(mapData, Some(SeqMin(vs)), Consumption)) == Some("Very High")
            && ConsumptionLegendLabel(GetColorByValueAsWritten(mapData, Some(SeqMax(vs)), Consumption)) == Some("Very Low")
  {
    var vs := Values(mapData.value.counties, Consumption);
    var lo, hi := SeqMin(vs), SeqMax(vs);
    assert lo <= vs[0] <= hi;
    UnitScale(lo, hi, lo, hi);
    assert Bucket(Normalized(lo, hi, lo)) == 0;
    assert Bucket(Normalized(lo, hi, hi)) == 4;
    assert GetColorByValueAsWritten(mapData, Some(lo), Consumption) == RenewablePalette[0];
    assert GetColorByValueAsWritten(mapData, Some(hi), Consumption) == RenewablePalette[4];
  }

  /**
   * With the intended palette the legend agrees with the map: the lowest
   * consumption is "Very Low", the highest "Very High".
   */
  lemma ConsumptionLegendAgrees(mapData: Option<MapData>)
    requires HasData(mapData)
    requires SeqMin(Values(mapData.value.counties, Consumption)) != SeqMax(Values(mapData.value.counties, Consumption))
    ensures var vs := Values(mapData.value.counties, Consumption);
            && ConsumptionLegendLabel(GetColorByValue(mapData, Some(SeqMin(vs)), Consumption)) == Some("Very Low")
            && ConsumptionLegendLabel(GetColorByValue(mapData, Some(SeqMax(vs)), Consumption)) == Some("Very High")
  {
    var vs := Values(mapData.value.counties, Consumption);
    ColorFollowsRank(mapData, Consumption, SeqMin(vs), SeqMax(vs));
  }

  // ---------------------------------------------------------------------------
  // The real-time merge

  /** `a` and `b` differ at most in the four real-time fields. */
  predicate SameStatic(a: County, b: County) {
    a.(currentConsumption := b.currentConsumption,
       currentRenewableGeneration := b.currentRenewableGeneration,
       gridStress := b.gridStress,
       isRealTime := b.isRealTime) == b
  }

  /** One county of the `counties.map(...)`: copied with the real-time fields of its update, if it has one. */
  function ApplyCountyUpdate(c: County, updates: map<string, CountyRealTimeUpdate>): County {
    if c.name in updates then
      var u := updates[c.name];
      c.(currentConsumption := Some(u.currentConsumption),
         currentRenewableGeneration := Some(u.renewableGeneration),
         gridStress := Some(u.gridStress),
         isRealTime := Some(true))
    else c
  }

  /**
   * The county half of the merge: same counties in the same order; a county
   * named in the update carries that update's figures and is marked real
   * time, with everything else unchanged; any other county is unchanged.
   */
  function ApplyCountyUpdates(counties: seq<County>, updates: map<string, CountyRealTimeUpdate>): (r: seq<County>)
    ensures |r| == |counties|
    ensures forall i :: 0 <= i < |r| ==> SameStatic(r[i], counties[i])
    ensures forall i :: 0 <= i < |r| && counties[i].name in updates ==>
              && r[i].currentConsumption == Some(updates[counties[i].name].currentConsumption)
              && r[i].currentRenewableGeneration == Some(updates[counties[i].name].renewableGeneration)
              && r[i].gridStress == Some(updates[counties[i].name].gridStress)
              && r[i].isRealTime == Some(true)
    ensures forall i :: 0 <= i < |r| && counties[i].name !in updates ==> r[i] == counties[i]
  {
    seq(|counties|, i requires 0 <= i < |counties| => ApplyCountyUpdate(counties[i], updates))
  }

  /** The state-totals half: the three real-time figures are overwritten and every other total kept. */
  function UpdateStateTotals(t: StateTotals, m: StateRealTimeMetrics): (r: StateTotals)
    ensures r.currentConsumption == Some(m.totalCurrentConsumption)
    ensures r.currentRenewablePercentage == Some(m.renewablePercentageNow)
    ensures r.gridStatus == Some(m.gridStatusMessage)
    ensures r.(currentConsumption := t.currentConsumption,
               currentRenewablePercentage := t.currentRenewablePercentage,
               gridStatus := t.gridStatus) == t
  {
    t.(currentConsumption := Some(m.totalCurrentConsumption),
       currentRenewablePercentage := Some(m.renewablePercentageNow),
       gridStatus := Some(m.gridStatusMessage))
  }

  /**
   * The merge effect: nothing happens until both the map data and an update
   * are present; then a new map value is built from copies, with the data
   * sources untouched.
   */
  function MergeRealTime(mapData: Option<MapData>, update: Option<RealTimeData>): (r: Option<MapData>)
    ensures mapData.None? || update.None? ==> r == mapData
    ensures mapData.Some? && update.Some? ==>
              && r.Some?
              && r.value.counties == ApplyCountyUpdates(mapData.value.counties, update.value.countyUpdates)
              && r.value.stateTotals == UpdateStateTotals(mapData.value.stateTotals, update.value.stateMetrics)
              && r.value.dataSources == mapData.value.dataSources
  {
    if mapData.Some? && update.Some? then
      var m := mapData.value;
      var u := update.value;
      Some(m.(counties := ApplyCountyUpdates(m.counties, u.countyUpdates),
              stateTotals := UpdateStateTotals(m.stateTotals, u.stateMetrics)))
    else mapData
  }

  /** Merging the same update twice gives the same map as merging it once. */
  lemma MergeIdempotent(mapData: Option<MapData>, update: Option<RealTimeData>)
    ensures MergeRealTime(MergeRealTime(mapData, update), update) == MergeRealTime(mapData, update)
  {
    if mapData.Some? && update.Some? {
      var cs := mapData.value.counties;
      var once := ApplyCountyUpdates(cs, update.value.countyUpdates);
      var twice := ApplyCountyUpdates(once, update.value.countyUpdates);
      assert forall i :: 0 <= i < |cs| ==> twice[i] == once[i];
      assert twice == once;
    }
  }

  /**
   * An update covering the same counties as an earlier one supersedes it
   * completely: the earlier merge leaves no trace.
   */
  lemma LatestUpdateWins(mapData: Option<MapData>, first: RealTimeData, second: RealTimeData)
    requires first.countyUpdates.Keys == second.countyUpdates.Keys
    ensures MergeRealTime(MergeRealTime(mapData, Some(first)), Some(second)) == MergeRealTime(mapData, Some(second))
  {
    if mapData.Some? {
      var cs := mapData.value.counties;
      var viaFirst := ApplyCountyUpdates(ApplyCountyUpdates(cs, first.countyUpdates), second.countyUpdates);
      var direct := ApplyCountyUpdates(cs, second.countyUpdates);
      assert forall i :: 0 <= i < |cs| ==> viaFirst[i] == direct[i];
      assert viaFirst == direct;
    }
  }

  /** Every update of the simulated feed names the same counties, so only the latest one shows. */
  lemma FeedUpdatesSupersede(mapData: Option<MapData>, c1: DayCycle.Clock, c2: DayCycle.Clock)
    ensures MergeRealTime(MergeRealTime(mapData, Some(DayCycle.FetchRealTimeUpdates(c1))), Some(DayCycle.FetchRealTimeUpdates(c2)))
            == MergeRealTime(mapData, Some(DayCycle.FetchRealTimeUpdates(c2)))
  {
    LatestUpdateWins(mapData, DayCycle.FetchRealTimeUpdates(c1), DayCycle.FetchRealTimeUpdates(c2));
  }

  // ---------------------------------------------------------------------------
  // Carbon footprints and markers

  /** One county with its footprint attached; the override passed is the county's own emissions figure. */
  function Enrich(c: County): (r: County)
    requires c.population != 0.0
    ensures r.carbonFootprint.Some?
    ensures r.carbonFootprint.value.perCapitaCarbonTonsPerYear * c.population
            == CarbonFootprint.TotalTons(c.consumptionMwh, c.renewablePercentage, Some(c.carbonEmissionsTons))
    ensures r.(carbonFootprint := c.carbonFootprint) == c
  {
    CarbonFootprint.CountyTotalChoice(c.consumptionMwh, c.population, c.renewablePercentage, Some(c.carbonEmissionsTons));
    c.(carbonFootprint := Some(CarbonFootprint.CalculateCountyCarbonFootprint(
      c.consumptionMwh, c.population, c.renewablePercentage, Some(c.carbonEmissionsTons))))
  }

  /**
   * `enrichCountiesWithCarbonFootprint`: the same counties in the same
   * order, each gaining only a footprint whose per-capita figure times the
   * population is the county's total (its emissions figure when non-zero,
   * the grid estimate otherwise).
   */
  function EnrichCountiesWithCarbonFootprint(counties: seq<County>): (r: seq<County>)
    requires forall i :: 0 <= i < |counties| ==> counties[i].population != 0.0
    ensures |r| == |counties|
    ensures forall i :: 0 <= i < |r| ==>
              && r[i].carbonFootprint.Some?
              && r[i].(carbonFootprint := counties[i].carbonFootprint) == counties[i]
              && r[i].carbonFootprint.value.perCapitaCarbonTonsPerYear * counties[i].population
                 == CarbonFootprint.TotalTons(counties[i].consumptionMwh, counties[i].renewablePercentage,
                                              Some(counties[i].carbonEmissionsTons))
  {
    var r := seq(|counties|, i requires 0 <= i < |counties| && counties[i].population != 0.0 => Enrich(counties[i]));
    assert forall i :: 0 <= i < |counties| ==> r[i] == Enrich(counties[i]);
    r
  }

  /**
   * The marker radius `Math.max(8, Math.sqrt(mwh / 20000))`, given the
   * square root `root` of `mwh / 20000`: never below 8, and exactly 8 for
   * consumption up to 1,280,000 MWh.
   */
  function MarkerRadius(consumptionMwh: real, root: real): (r: real)
    requires consumptionMwh >= 0.0 && root >= 0.0 && root * root == consumptionMwh / 20000.0
    ensures r >= 8.0
    ensures r == 8.0 <==> consumptionMwh <= 1280000.0
    ensures r * r >= consumptionMwh / 20000.0
    ensures r * r == Max(64.0, consumptionMwh / 20000.0)
  {
    RootAgainstEight(root);
    Max(8.0, root)
  }

  /** For non-negative reals the squares keep the order. */
  lemma SquareMonotone(a: real, b: real)
    requires 0.0 <= a <= b
    ensures a * a <= b * b
  {
    MulNonNegative(b - a, b + a);
    assert (b - a) * (b + a) == b * b - a * a;
  }

  /** For non-negative reals a strictly larger number has a strictly larger square. */
  lemma SquareStrict(a: real, b: real)
    requires 0.0 <= a < b
    ensures a * a < b * b
  {
    MulPositive(b - a, b + a);
    assert (b - a) * (b + a) == b * b - a * a;
  }

  /** A non-negative root is at most 8 exactly when its square is at most 64, and the larger of 8 and the root squares to at least the root's square. */
  lemma RootAgainstEight(root: real)
    requires root >= 0.0
    ensures root <= 8.0 <==> root * root <= 64.0
    ensures Max(8.0, root) * Max(8.0, root) >= root * root
  {
    if root <= 8.0 {
      SquareMonotone(root, 8.0);
    } else {
      SquareStrict(8.0, root);
    }
  }

  /** A county with more consumption never gets a smaller marker. */
  lemma MarkerRadiusMonotone(c1: real, root1: real, c2: real, root2: real)
    requires c1 >= 0.0 && root1 >= 0.0 && root1 * root1 == c1 / 20000.0
    requires c2 >= 0.0 && root2 >= 0.0 && root2 * root2 == c2 / 20000.0
    requires c1 <= c2
    ensures MarkerRadius(c1, root1) <= MarkerRadius(c2, root2)
  {
    if root1 > root2 {
      SquareStrict(root2, root1);
    }
  }
}

=== FILE: historical.dfy ===
/**
 * `HistoricalDataService`: the 30-minute per-county cache, the monthly and
 * yearly aggregation loops with their per-period fallbacks, the synthetic
 * daily generator, the whole-series fallback and the county tables.
 *
 * Time is counted in whole units: months as absolute indices
 * (`year * 12 + month`, month 0 = January), years, and days as day
 * numbers. What a period's fetch returns is a parameter (`PeriodFetch`);
 * the fetch the source actually performs is modelled by
 * `FetchDataForPeriod`. Random draws and the seasonal sine are parameters.
 */
module Historical {
  import opened Prelude
  import opened TtlCache
  import opened Domain

  /** The cache time-to-live: 30 minutes in milliseconds. */
  const CacheTimeout: int := 30 * 60 * 1000

  /** A point's date label: "Mon YYYY", "YYYY" or a day's ISO date. */
  datatype Label = MonthOf(index: int) | YearOf(year: int) | DayOf(day: int)

  /** `HistoricalDataPoint`. */
  datatype Point = Point(date: Label, consumptionMwh: int, renewablePercentage: real)

  datatype HistoricalData = HistoricalData(monthlyData: seq<Point>, yearlyData: seq<Point>)

  /** The only error a period fetch raises: the EIA client is not configured. */
  datatype PeriodError = ApiNotConfigured

  // ---------------------------------------------------------------------------
  // County tables

  /**
   * `getBalancingAuthority`: the table value for the ten listed counties and
   * AZPS for every other name.
   */
  function GetBalancingAuthority(county: string): (a: Authority)
    ensures a == Walc <==> county == "Yuma" || county == "Mohave"
    ensures a == Srp <==> county == "Gila"
  {
    match county
    case "Maricopa" => Azps
    case "Pima" => Azps
    case "Pinal" => Azps
    case "Yavapai" => Azps
    case "Coconino" => Azps
    case "Navajo" => Azps
    case "Cochise" => Azps
    case "Yuma" => Walc
    case "Mohave" => Walc
    case "Gila" => Srp
    case _ => Azps
  }

  datatype Base = Base(consumption: real, renewable: real)

  /** The ten counties both base tables list. */
  predicate Listed(county: string) {
    county in {"Maricopa", "Pima", "Pinal", "Yavapai", "Coconino", "Navajo", "Cochise", "Yuma", "Mohave", "Gila"}
  }

  /**
   * The per-county base consumption (MWh) and renewable share (%); the
   * generator's two tables and the fallback table hold the same values.
   * Every other name gets 100000 and 20.
   */
  function BaseValues(county: string): (b: Base)
    ensures !Listed(county) ==> b == Base(100000.0, 20.0)
    ensures 42000.0 <= b.consumption <= 3500000.0 && 14.2 <= b.renewable <= 35.6
  {
    match county
    case "Maricopa" => Base(3500000.0, 18.5)
    case "Pima" => Base(680000.0, 22.3)
    case "Pinal" => Base(320000.0, 15.8)
    case "Yavapai" => Base(190000.0, 25.1)
    case "Coconino" => Base(120000.0, 28.4)
    case "Navajo" => Base(85000.0, 31.2)
    case "Cochise" => Base(100000.0, 19.7)
    case "Yuma" => Base(160000.0, 16.9)
    case "Mohave" => Base(170000.0, 14.2)
    case "Gila" => Base(42000.0, 35.6)
    case _ => Base(100000.0, 20.0)
  }

  /** Every county outside the table is attributed to AZPS. */
  lemma UnlistedCountyIsAzps(county: string)
    requires !Listed(county)
    ensures GetBalancingAuthority(county) == Azps
  {
  }

  // ---------------------------------------------------------------------------
  // Synthetic points

  /** `1 + 0.3 * sin(...)`, the seasonal multiplier, in [0.7, 1.3]. */
  function Seasonal(d: Draw): (m: real)
    ensures 0.7 <= m <= 1.3
  {
    1.0 + 0.3 * d.sine
  }

  /** `0.85 + Math.random() * 0.3`, the random variation, in [0.85, 1.15). */
  function Variation(d: Draw): (v: real)
    ensures 0.85 <= v < 1.15
  {
    0.85 + d.jitter * 0.3
  }

  /** `(Math.random() - 0.5) * 5`, the renewable noise, in [-2.5, 2.5). */
  function Noise(d: Draw): (n: real)
    ensures -2.5 <= n < 2.5
  {
    (d.noise - 0.5) * 5.0
  }

  /** Both factors together lie in [0.595, 1.495]. */
  lemma FactorBounds(d: Draw)
    ensures 0.595 <= Seasonal(d) * Variation(d) <= 1.495
  {
    var s, v := Seasonal(d), Variation(d);
    MulNonNegative(s - 0.7, v - 0.85);
    MulNonNegative(1.3 - s, v - 0.85);
    assert (s - 0.7) * (v - 0.85) == s * v - 0.85 * s - 0.7 * v + 0.595;
    assert (1.3 - s) * (v - 0.85) == 1.3 * v - 1.105 - s * v + 0.85 * s;
    var sv := s * v;
    assert sv >= 0.85 * s + 0.7 * v - 0.595 >= 0.595;
    assert sv <= 1.3 * v + 0.85 * s - 1.105 <= 1.495;
  }

  /** `generateFallbackDataPoint`: base values with seasonal and random variation. */
  function FallbackPoint(county: string, date: Label, d: Draw): (p: Point)
    ensures p.date == date
    ensures var b := BaseValues(county);
            b.consumption * 0.595 - 0.5 < p.consumptionMwh as real <= b.consumption * 1.495 + 0.5
    ensures var b := BaseValues(county);
            b.renewable - 2.55 < p.renewablePercentage <= b.renewable + 2.55
  {
    var b := BaseValues(county);
    FactorBounds(d);
    var x := b.consumption * (Seasonal(d) * Variation(d));
    assert b.consumption * 0.595 <= x <= b.consumption * 1.495 by {
      assert b.consumption * (Seasonal(d) * Variation(d) - 0.595) >= 0.0;
      assert b.consumption * (1.495 - Seasonal(d) * Variation(d)) >= 0.0;
    }
    assert b.consumption * Seasonal(d) * Variation(d) == x;
    Point(date, Round(b.consumption * Seasonal(d) * Variation(d)), RoundTenth(b.renewable + Noise(d)))
  }

  /**
   * For a county outside the table the fallback point lies in
   * [59500, 149500] MWh and [17.5, 22.5] percent.
   */
  lemma {:induction false} UnlistedFallbackBounds(county: string, date: Label, d: Draw)
    requires !Listed(county)
    ensures 59500 <= FallbackPoint(county, date, d).consumptionMwh <= 149500
    ensures 17.5 <= FallbackPoint(county, date, d).renewablePercentage <= 22.5
  {
    var x := 100000.0 * Seasonal(d) * Variation(d);
    FactorBounds(d);
    assert 59500.0 <= x <= 149500.0;
    RoundWithin(x, 59500, 149500);
    var y := (20.0 + Noise(d)) * 10.0;
    RoundWithin(y, 175, 225);
  }

  /**
   * One day of `generateMockDataForPeriod`: like a fallback point, with the
   * renewable share raised by 1.5 points per year since the period start
   * (at most 10) and capped at 50.
   */
  function MockPoint(county: string, startDay: int, day: int, d: Draw): (p: Point)
    requires startDay <= day
    ensures p.date == DayOf(day)
    ensures p.renewablePercentage <= 50.0
    ensures var b := BaseValues(county);
            b.renewable - 2.55 < p.renewablePercentage <= b.renewable + 12.55
  {
    var b := BaseValues(county);
    var years := (day - startDay) as real / 365.25;
    var improvement := Min(10.0, years * 1.5);
    var renewable := Min(50.0, b.renewable + improvement + Noise(d));
    RoundWithin(renewable * 10.0, 0, 500);
    FactorBounds(d);
    Point(DayOf(day), Round(b.consumption * Seasonal(d) * Variation(d)), RoundTenth(renewable))
  }

  /**
   * `generateMockDataForPeriod`: one point per day from `startDay` to
   * `endDay` inclusive, in day order; `draw(k)` is the k-th day's draw.
   */
  function GenerateMockDataForPeriod(county: string, startDay: int, endDay: int, draw: int -> Draw): (ps: seq<Point>)
    ensures |ps| == if startDay <= endDay then endDay - startDay + 1 else 0
    ensures forall i :: 0 <= i < |ps| ==> ps[i].date == DayOf(startDay + i) && ps[i].renewablePercentage <= 50.0
  {
    if endDay < startDay then []
    else
      var ps := seq(endDay - startDay + 1, i requires 0 <= i <= endDay - startDay =>
                      MockPoint(county, startDay, startDay + i, draw(i)));
      assert forall i :: 0 <= i < |ps| ==> ps[i] == MockPoint(county, startDay, startDay + i, draw(i));
      ps
  }

  /**
   * `fetchDataForPeriod`: the configuration error when the EIA client is not
   * configured, and otherwise the generated points (no request is made).
   */
  function FetchDataForPeriod(configured: bool, county: string, startDay: int, endDay: int,
                              draw: int -> Draw): (r: Result<seq<Point>, PeriodError>)
    ensures !configured <==> r == Failure(ApiNotConfigured)
    ensures configured && startDay <= endDay ==> r.Success? && |r.value| == endDay - startDay + 1
  {
    if !configured then Failure(ApiNotConfigured)
    else Success(GenerateMockDataForPeriod(county, startDay, endDay, draw))
  }

  // ---------------------------------------------------------------------------
  // Roll-up of one period

  function Consumptions(ps: seq<Point>): (xs: seq<real>)
    ensures |xs| == |ps|
  {
    seq(|ps|, i requires 0 <= i < |ps| => ps[i].consumptionMwh as real)
  }

  function Renewables(ps: seq<Point>): (xs: seq<real>)
    ensures |xs| == |ps|
  {
    seq(|ps|, i requires 0 <= i < |ps| => ps[i].renewablePercentage)
  }

  /**
   * A period's aggregate: total consumption rounded, and the mean renewable
   * share rounded to one decimal.
   */
  function RollUp(ps: seq<Point>, date: Label): (p: Point)
    requires |ps| > 0
    ensures p.date == date
    ensures Sum(Consumptions(ps)) - 0.5 < p.consumptionMwh as real <= Sum(Consumptions(ps)) + 0.5
    ensures var mean := Sum(Renewables(ps)) / |ps| as real;
            mean - 0.05 < p.renewablePercentage <= mean + 0.05
    ensures (p.renewablePercentage * 10.0).Floor as real == p.renewablePercentage * 10.0
  {
    Point(date, Round(Sum(Consumptions(ps))), RoundTenth(Sum(Renewables(ps)) / |ps| as real))
  }

  /** When every daily share is in [0, 50], so is the period's. */
  lemma {:induction false} RollUpShareBounds(ps: seq<Point>, date: Label)
    requires |ps| > 0
    requires forall i :: 0 <= i < |ps| ==> 0.0 <= ps[i].renewablePercentage <= 50.0
    ensures 0.0 <= RollUp(ps, date).renewablePercentage <= 50.0
  {
    var xs := Renewables(ps);
    assert forall i :: 0 <= i < |xs| ==> 0.0 <= xs[i] <= 50.0;
    MeanBounds(xs, 0.0, 50.0);
    var mean := Sum(xs) / |xs| as real;
    RoundWithin(mean * 10.0, 0, 500);
  }

  /**
   * One pass of either loop: the roll-up of a non-empty period, or a single
   * fallback point when the period came back empty or failed. Empty and
   * failed periods may be labelled differently.
   */
  function PeriodPoint(county: string, fetched: Result<seq<Point>, PeriodError>, rolledDate: Label,
                       emptyDate: Label, errorDate: Label, d: Draw): (p: Point)
    ensures fetched.Success? && |fetched.value| > 0 ==> p == RollUp(fetched.value, rolledDate)
    ensures fetched.Success? && |fetched.value| == 0 ==> p == FallbackPoint(county, emptyDate, d)
    ensures fetched.Failure? ==> p == FallbackPoint(county, errorDate, d)
  {
    match fetched
    case Success(ps) => if |ps| > 0 then RollUp(ps, rolledDate) else FallbackPoint(county, emptyDate, d)
    case Failure(_) => FallbackPoint(county, errorDate, d)
  }

  /** What each period's fetch returns, and the draws of its fallback point. */
  type PeriodFetch = int -> Result<seq<Point>, PeriodError>

  /** The monthly loop's point for month `m`: labelled with that month however it came about. */
  function MonthPoint(county: string, m: int, fetch: PeriodFetch, draw: int -> Draw): (p: Point)
    ensures p.date == MonthOf(m)
  {
    PeriodPoint(county, fetch(m), MonthOf(m), MonthOf(m), MonthOf(m), draw(m))
  }

  /**
   * The yearly loop's point for year `y`, where `monthOfYear` is the current
   * month: the year label when rolled up, January of `y` when the year came
   * back empty, and the current month of `y` when the fetch failed.
   */
  function YearPoint(county: string, y: int, monthOfYear: int, fetch: PeriodFetch, draw: int -> Draw): (p: Point)
    ensures fetch(y).Success? && |fetch(y).value| > 0 ==> p.date == YearOf(y)
    ensures fetch(y).Success? && |fetch(y).value| == 0 ==> p.date == MonthOf(y * 12)
    ensures fetch(y).Failure? ==> p.date == MonthOf(y * 12 + monthOfYear)
  {
    PeriodPoint(county, fetch(y), YearOf(y), MonthOf(y * 12), MonthOf(y * 12 + monthOfYear), draw(y))
  }

  // ---------------------------------------------------------------------------
  // The loops

  /**
   * The shape both loops share: one point per period from `first` to `last`
   * inclusive, in order, each computed on its own so that a failed period
   * never stops the loop.
   */
  method CollectPeriods(first: int, last: int, pointAt: int -> Point) returns (points: seq<Point>)
    ensures |points| == if first <= last then last - first + 1 else 0
    ensures forall i :: 0 <= i < |points| ==> points[i] == pointAt(first + i)
  {
    points := [];
    var current := first;
    while current <= last
      invariant first <= current && (first <= last ==> current <= last + 1)
      invariant first > last ==> current == first
      invariant |points| == current - first
      invariant forall i :: 0 <= i < |points| ==> points[i] == pointAt(first + i)
      decreases last - current
    {
      points := points + [pointAt(current)];
      current := current + 1;
    }
  }

  /**
   * The monthly loop as written: it starts 12 months before the current
   * month and runs through the current month inclusive, so it yields 13
   * points and the current calendar month appears twice, a year apart.
   * This assumes both clock reads return the same instant and the day of
   * the month exists in every visited month.
   */
  method FetchMonthlyDataAsWritten(county: string, nowMonth: int, fetch: PeriodFetch, draw: int -> Draw)
    returns (points: seq<Point>)
    ensures |points| == 13
    ensures points[0].date == MonthOf(nowMonth - 12) && points[12].date == MonthOf(nowMonth)
    ensures points[0].date.index % 12 == points[12].date.index % 12
    ensures forall i :: 0 <= i < 13 ==> points[i] == MonthPoint(county, nowMonth - 12 + i, fetch, draw)
  {
    points := CollectPeriods(nowMonth - 12, nowMonth, m => MonthPoint(county, m, fetch, draw));
  }

  /** The monthly loop over the 12 months ending with the current one, oldest first. */
  method FetchMonthlyData(county: string, nowMonth: int, fetch: PeriodFetch, draw: int -> Draw)
    returns (points: seq<Point>)
    ensures |points| == 12
    ensures forall i :: 0 <= i < 12 ==> points[i] == MonthPoint(county, nowMonth - 11 + i, fetch, draw)
    ensures forall i :: 0 <= i < 12 ==> points[i].date == MonthOf(nowMonth - 11 + i)
  {
    points := CollectPeriods(nowMonth - 11, nowMonth, m => MonthPoint(county, m, fetch, draw));
  }

  /**
   * The yearly loop as written: the year ten years back through the current
   * year inclusive, 11 points.
   */
  method FetchYearlyDataAsWritten(county: string, nowYear: int, monthOfYear: int, fetch: PeriodFetch,
                                  draw: int -> Draw) returns (points: seq<Point>)
    ensures |points| == 11
    ensures forall i :: 0 <= i < 11 ==> points[i] == YearPoint(county, nowYear - 10 + i, monthOfYear, fetch, draw)
  {
    points := CollectPeriods(nowYear - 10, nowYear, y => YearPoint(county, y, monthOfYear, fetch, draw));
  }

  /** The yearly loop over the 10 years ending with the current one, oldest first. */
  method FetchYearlyData(county: string, nowYear: int, monthOfYear: int, fetch: PeriodFetch, draw: int -> Draw)
    returns (points: seq<Point>)
    ensures |points| == 10
    ensures forall i :: 0 <= i < 10 ==> points[i] == YearPoint(county, nowYear - 9 + i, monthOfYear, fetch, draw)
  {
    points := CollectPeriods(nowYear - 9, nowYear, y => YearPoint(county, y, monthOfYear, fetch, draw));
  }

  // ---------------------------------------------------------------------------
  // Whole-series fallback

  /**
   * `generateFallbackData`: 12 monthly points ending with the current month
   * and 10 yearly points labelled with January of each of the last 10
   * years, oldest first.
   */
  function GenerateFallbackData(county: string, nowMonth: int, monthDraw: int -> Draw, yearDraw: int -> Draw)
    : (h: HistoricalData)
    ensures |h.monthlyData| == 12 && |h.yearlyData| == 10
    ensures forall i :: 0 <= i < 12 ==> h.monthlyData[i].date == MonthOf(nowMonth - 11 + i)
    ensures forall i :: 0 <= i < 10 ==> h.yearlyData[i].date == MonthOf((nowMonth / 12 - 9 + i) * 12)
  {
    var monthly := seq(12, i requires 0 <= i < 12 => FallbackPoint(county, MonthOf(nowMonth - 11 + i), monthDraw(i)));
    var yearly := seq(10, i requires 0 <= i < 10 => FallbackPoint(county, MonthOf((nowMonth / 12 - 9 + i) * 12), yearDraw(i)));
    assert forall i :: 0 <= i < 12 ==> monthly[i] == FallbackPoint(county, MonthOf(nowMonth - 11 + i), monthDraw(i));
    assert forall i :: 0 <= i < 10 ==> yearly[i] == FallbackPoint(county, MonthOf((nowMonth / 12 - 9 + i) * 12), yearDraw(i));
    HistoricalData(monthly, yearly)
  }

  // ---------------------------------------------------------------------------
  // The service

  datatype HistoricalService = HistoricalService(cache: Cache<string, HistoricalData>)

  /** The cache key of a county. */
  function CacheKey(county: string): (k: string)
    ensures |k| == |county| + 11 && k[11..] == county
  {
    "historical-" + county
  }

  /** Distinct counties never share a cache entry. */
  lemma CacheKeyInjective(a: string, b: string)
    requires CacheKey(a) == CacheKey(b)
    ensures a == b
  {
    assert a == CacheKey(a)[11..];
  }

  /**
   * The decision of `getCountyHistoricalData` once the series have been
   * attempted: a fresh cache entry wins; otherwise a built result is cached
   * at `storedAt` and returned, and a failure returns the whole-series
   * fallback without caching it.
   */
  function Resolve(s: HistoricalService, county: string, now: int, attempt: Result<HistoricalData, PeriodError>,
                   fallback: HistoricalData, storedAt: int): (r: (HistoricalData, HistoricalService))
    ensures Lookup(s.cache, CacheKey(county), now, CacheTimeout).Some? ==>
              r == (Lookup(s.cache, CacheKey(county), now, CacheTimeout).value, s)
    ensures Lookup(s.cache, CacheKey(county), now, CacheTimeout).None? && attempt.Success? ==>
              r.0 == attempt.value && r.1.cache == s.cache[CacheKey(county) := Entry(attempt.value, storedAt)]
    ensures Lookup(s.cache, CacheKey(county), now, CacheTimeout).None? && attempt.Failure? ==> r == (fallback, s)
  {
    match Lookup(s.cache, CacheKey(county), now, CacheTimeout)
    case Some(cached) => (cached, s)
    case None =>
      match attempt
      case Success(h) => (h, HistoricalService(Store(s.cache, CacheKey(county), h, storedAt)))
      case Failure(_) => (fallback, s)
  }

  /**
   * `getCountyHistoricalData` as written: the cached series while fresh;
   * otherwise both loops as written are run (each period failing on its own),
   * so a miss yields 13 monthly points, the current calendar month first and
   * last, and 11 yearly points; the result is cached at `storedAt` and
   * returned. The loops never fail as a whole, so the whole-series fallback
   * is not reached.
   */
  method GetCountyHistoricalData(s: HistoricalService, county: string, now: int, nowMonth: int,
                                 monthFetch: PeriodFetch, yearFetch: PeriodFetch,
                                 monthDraw: int -> Draw, yearDraw: int -> Draw, storedAt: int)
    returns (h: HistoricalData, next: HistoricalService)
    ensures Lookup(s.cache, CacheKey(county), now, CacheTimeout).Some? ==>
              h == Lookup(s.cache, CacheKey(county), now, CacheTimeout).value && next == s
    ensures Lookup(s.cache, CacheKey(county), now, CacheTimeout).None? ==>
              && |h.monthlyData| == 13 && |h.yearlyData| == 11
              && (forall i :: 0 <= i < 13 ==> h.monthlyData[i].date == MonthOf(nowMonth - 12 + i))
              && (forall i :: 0 <= i < 13 ==> h.monthlyData[i] == MonthPoint(county, nowMonth - 12 + i, monthFetch, monthDraw))
              && (forall i :: 0 <= i < 11 ==>
                    h.yearlyData[i] == YearPoint(county, nowMonth / 12 - 10 + i, nowMonth % 12, yearFetch, yearDraw))
              && next.cache == s.cache[CacheKey(county) := Entry(h, storedAt)]
              && Lookup(next.cache, CacheKey(county), storedAt, CacheTimeout) == Some(h)
  {
    var monthly := FetchMonthlyDataAsWritten(county, nowMonth, monthFetch, monthDraw);
    var yearly := FetchYearlyDataAsWritten(county, nowMonth / 12, nowMonth % 12, yearFetch, yearDraw);
    var fallback := GenerateFallbackData(county, nowMonth, monthDraw, yearDraw);
    var r := Resolve(s, county, now, Success(HistoricalData(monthly, yearly)), fallback, storedAt);
    h, next := r.0, r.1;
  }

  /**
   * `getCountyHistoricalData` over the corrected loops: a miss yields the
   * 12 months and the 10 years ending now, oldest first, as the fallback
   * series has them.
   */
  method GetCountyHistoricalDataCorrected(s: HistoricalService, county: string, now: int, nowMonth: int,
                                          monthFetch: PeriodFetch, yearFetch: PeriodFetch,
                                          monthDraw: int -> Draw, yearDraw: int -> Draw, storedAt: int)
    returns (h: HistoricalData, next: HistoricalService)
    ensures Lookup(s.cache, CacheKey(county), now, CacheTimeout).Some? ==>
              h == Lookup(s.cache, CacheKey(county), now, CacheTimeout).value && next == s
    ensures Lookup(s.cache, CacheKey(county), now, CacheTimeout).None? ==>
              && |h.monthlyData| == 12 && |h.yearlyData| == 10
              && (forall i :: 0 <= i < 12 ==> h.monthlyData[i].date == MonthOf(nowMonth - 11 + i))
              && (forall i :: 0 <= i < 12 ==> h.monthlyData[i] == MonthPoint(county, nowMonth - 11 + i, monthFetch, monthDraw))
              && (forall i :: 0 <= i < 10 ==>
                    h.yearlyData[i] == YearPoint(county, nowMonth / 12 - 9 + i, nowMonth % 12, yearFetch, yearDraw))
              && next.cache == s.cache[CacheKey(county) := Entry(h, storedAt)]
              && Lookup(next.cache, CacheKey(county), storedAt, CacheTimeout) == Some(h)
  {
    var monthly := FetchMonthlyData(county, nowMonth, monthFetch, monthDraw);
    var yearly := FetchYearlyData(county, nowMonth / 12, nowMonth % 12, yearFetch, yearDraw);
    var fallback := GenerateFallbackData(county, nowMonth, monthDraw, yearDraw);
    var r := Resolve(s, county, now, Success(HistoricalData(monthly, yearly)), fallback, storedAt);
    h, next := r.0, r.1;
  }

  /** `clearCache`: every county misses afterwards. */
  function ClearCache(s: HistoricalService): (r: HistoricalService)
    ensures forall county: string, now: int :: Lookup(r.cache, CacheKey(county), now, CacheTimeout) == None
  {
    HistoricalService(Clear(s.cache))
  }
}

=== FILE: prelude.dfy ===
/**
 * Small shared vocabulary: optional values and results, JavaScript's
 * `Math.round` on exact reals, sums and the bounded draws that stand in for
 * `Math.random` and `Math.sin`.
 */
module Prelude {

  /** A value that may be absent (`undefined`, `null` or `NaN` in the source). */
  datatype Option<+T> = None | Some(value: T) {

    /** The value, or `default` when absent: JavaScript's `x || default` for a non-zero `x`. */
    function GetOr(default: T): T {
      match this
      case Some(v) => v
      case None => default
    }
  }

  /** The outcome of an operation that may throw. */
  datatype Result<+T, +E> = Success(value: T) | Failure(error: E)

  /** A draw of `Math.random()`: a real in [0, 1). */
  type Unit = x: real | 0.0 <= x < 1.0

  /** A value of `Math.sin`: a real in [-1, 1]. */
  type Sine = x: real | -1.0 <= x <= 1.0

  /**
   * One synthetic sample: the sine of its seasonal angle, a jitter draw and a
   * noise draw for the renewable share.
   */
  datatype Draw = Draw(sine: Sine, jitter: Unit, noise: Unit)

  /**
   * `Math.round` on an exact real: the nearest integer, halves rounding up.
   * The result is the unique integer in (x - 1/2, x + 1/2].
   */
  function Round(x: real): (r: int)
    ensures x - 0.5 < r as real <= x + 0.5
  {
    (x + 0.5).Floor
  }

  /** `Math.round(x * 10) / 10`: rounding to one decimal place. */
  function RoundTenth(x: real): (r: real)
    ensures x - 0.05 < r <= x + 0.05
  {
    Round(x * 10.0) as real / 10.0
  }

  lemma RoundMonotone(x: real, y: real)
    requires x <= y
    ensures Round(x) <= Round(y)
  {
  }

  /** An integer bound on `x` carries over to its rounding. */
  lemma {:induction false} RoundWithin(x: real, lo: int, hi: int)
    requires lo as real <= x <= hi as real
    ensures lo <= Round(x) <= hi
  {
    RoundMonotone(lo as real, x);
    RoundMonotone(x, hi as real);
    assert Round(lo as real) == lo;
    assert Round(hi as real) == hi;
  }

  /** The product of two non-negative reals is non-negative. */
  lemma MulNonNegative(a: real, b: real)
    requires a >= 0.0 && b >= 0.0
    ensures a * b >= 0.0
  {
  }

  /** The product of two positive reals is positive. */
  lemma MulPositive(a: real, b: real)
    requires a > 0.0 && b > 0.0
    ensures a * b > 0.0
  {
  }

  /** Rounding `k * j` for `j` in [lo, hi] and non-negative `k` stays within half a unit of [k * lo, k * hi]. */
  lemma RoundScaled(k: real, lo: real, j: real, hi: real)
    requires k >= 0.0 && lo <= j <= hi
    ensures k * lo - 0.5 < Round(k * j) as real <= k * hi + 0.5
  {
    var x := k * j;
    assert k * (j - lo) >= 0.0;
    assert k * (hi - j) >= 0.0;
    assert k * lo <= x <= k * hi;
    assert x - 0.5 < Round(x) as real <= x + 0.5;
  }

  function Max(a: real, b: real): real {
    if a >= b then a else b
  }

  function Min(a: real, b: real): real {
    if a <= b then a else b
  }

  /** Left-to-right sum, as `reduce((acc, x) => acc + x, 0)` computes it. */
  function Sum(xs: seq<real>): real {
    if |xs| == 0 then 0.0 else Sum(xs[..|xs| - 1]) + xs[|xs| - 1]
  }

  lemma {:induction false} SumAppend(a: seq<real>, b: seq<real>)
    ensures Sum(a + b) == Sum(a) + Sum(b)
    decreases |b|
  {
    if |b| == 0 {
      assert a + b == a;
    } else {
      var b' := b[..|b| - 1];
      assert (a + b)[..|a + b| - 1] == a + b';
      SumAppend(a, b');
    }
  }

  /** Every element lies in [lo, hi], so the sum lies in [n * lo, n * hi]. */
  lemma {:induction false} SumBounds(xs: seq<real>, lo: real, hi: real)
    requires forall i :: 0 <= i < |xs| ==> lo <= xs[i] <= hi
    ensures |xs| as real * lo <= Sum(xs) <= |xs| as real * hi
  {
    if |xs| > 0 {
      SumBounds(xs[..|xs| - 1], lo, hi);
    }
  }

  /** The mean of a non-empty sequence lies between its bounds. */
  lemma MeanBounds(xs: seq<real>, lo: real, hi: real)
    requires |xs| > 0
    requires forall i :: 0 <= i < |xs| ==> lo <= xs[i] <= hi
    ensures lo <= Sum(xs) / |xs| as real <= hi
  {
    SumBounds(xs, lo, hi);
    var n := |xs| as real;
    var m := Sum(xs) / n;
    assert m * n == Sum(xs);
    assert lo * n <= m * n <= hi * n;
  }

  /** `Math.min(...xs)` on a non-empty list. */
  function SeqMin(xs: seq<real>): (m: real)
    requires |xs| > 0
    ensures m in xs
    ensures forall i :: 0 <= i < |xs| ==> m <= xs[i]
  {
    if |xs| == 1 then xs[0]
    else
      var rest := SeqMin(xs[..|xs| - 1]);
      Min(rest, xs[|xs| - 1])
  }

  /** `Math.max(...xs)` on a non-empty list. */
  function SeqMax(xs: seq<real>): (m: real)
    requires |xs| > 0
    ensures m in xs
    ensures forall i :: 0 <= i < |xs| ==> xs[i] <= m
  {
    if |xs| == 1 then xs[0]
    else
      var rest := SeqMax(xs[..|xs| - 1]);
      Max(rest, xs[|xs| - 1])
  }
}

=== FILE: realtime_legacy.dfy ===
/**
 * The older JavaScript `RealTimeDataService`: one subscriber list, the
 * `isConnected` flag and the 30-second interval. There is no online flag
 * and no status channel: `connect` always fetches, every firing of a live
 * interval fetches, and `disconnect` notifies nobody.
 */
module RealTimeLegacy {
  import opened Prelude
  import opened Domain
  import opened Registry
  import opened Timers
  import opened DayCycle

  datatype Service<C> = Service(subscribers: seq<C>, isConnected: bool, updateInterval: Option<nat>, timers: TimerTable)

  /** The state after a transition and the data deliveries it made, in order. */
  datatype Step<C> = Step(state: Service<C>, outputs: seq<Delivery<C, RealTimeData>>)

  function New<C>(): (s: Service<C>)
    ensures Valid(s) && !s.isConnected && s.subscribers == []
  {
    Service([], false, None, NoTimers)
  }

  /** As in the TypeScript version: a handle is stored, and live, exactly while connected. */
  predicate Valid<C>(s: Service<C>) {
    && Timers.Valid(s.timers)
    && (s.updateInterval.Some? <==> s.isConnected)
    && (s.updateInterval.Some? ==> s.updateInterval.value in s.timers.live)
  }

  /** `getConnectionStatus`: the flag alone, with no network component. */
  function GetConnectionStatus<C>(s: Service<C>, now: int): (r: ConnectionStatus)
    ensures r.isConnected == s.isConnected
    ensures r.subscriberCount == |s.subscribers|
    ensures r.lastUpdate == now
  {
    ConnectionStatus(s.isConnected, |s.subscribers|, now)
  }

  function SubscribeData<C>(s: Service<C>, cb: C): (r: Service<C>)
    ensures r.subscribers == s.subscribers + [cb]
    ensures r == s.(subscribers := r.subscribers)
  {
    s.(subscribers := Subscribe(s.subscribers, cb))
  }

  function UnsubscribeData<C(==, !new)>(s: Service<C>, cb: C): (r: Service<C>)
    ensures cb !in r.subscribers
    ensures r == s.(subscribers := r.subscribers)
  {
    s.(subscribers := Unsubscribe(s.subscribers, cb))
  }

  /** `connect`: set the flag, arm a new interval, and fetch and broadcast once. */
  function Connect<C>(s: Service<C>, c: Clock): (r: Step<C>)
    requires Valid(s)
    ensures Valid(r.state) && r.state.isConnected
    ensures r.state.subscribers == s.subscribers
    ensures r.state.updateInterval.value !in s.timers.live
    ensures |r.outputs| == |s.subscribers|
    ensures forall i :: 0 <= i < |r.outputs| ==> r.outputs[i] == Delivery(s.subscribers[i], FetchRealTimeUpdates(c))
  {
    var (handle, timers) := Arm(s.timers);
    var next := s.(isConnected := true, updateInterval := Some(handle), timers := timers);
    Step(next, Broadcast(next.subscribers, FetchRealTimeUpdates(c)))
  }

  /** `disconnect`: clear the flag and the stored interval, invoking no callback. */
  function Disconnect<C>(s: Service<C>): (r: Step<C>)
    requires Valid(s)
    ensures Valid(r.state)
    ensures !r.state.isConnected && r.state.updateInterval == None && r.state.subscribers == s.subscribers
    ensures s.updateInterval.Some? ==> s.updateInterval.value !in r.state.timers.live
    ensures s.updateInterval.Some? ==> r.state.timers.live == s.timers.live - {s.updateInterval.value}
    ensures s.updateInterval.None? ==> r.state.timers == s.timers
    ensures r.outputs == []
  {
    var timers := if s.updateInterval.Some? then Cancel(s.timers, s.updateInterval.value) else s.timers;
    Step(s.(isConnected := false, updateInterval := None, timers := timers), [])
  }

  /** One firing of interval `h`: a live interval always fetches and broadcasts. */
  function Tick<C>(s: Service<C>, h: nat, c: Clock): (r: Step<C>)
    ensures r.state == s
    ensures h !in s.timers.live ==> r.outputs == []
    ensures h in s.timers.live ==> |r.outputs| == |s.subscribers|
    ensures h in s.timers.live ==>
              forall i :: 0 <= i < |r.outputs| ==> r.outputs[i] == Delivery(s.subscribers[i], FetchRealTimeUpdates(c))
  {
    Step(s, if h in s.timers.live then Broadcast(s.subscribers, FetchRealTimeUpdates(c)) else [])
  }

  /** Connecting then disconnecting is silent on the way out and leaves no interval running. */
  lemma ConnectThenDisconnect<C>(s: Service<C>, c: Clock, h: nat, c': Clock)
    requires Valid(s) && !s.isConnected
    ensures var connected := Connect(s, c).state;
            var stopped := Disconnect(connected);
            && stopped.outputs == []
            && stopped.state.timers.live == s.timers.live
            && (h !in s.timers.live ==> Tick(stopped.state, h, c').outputs == [])
  {
  }

  /** Disconnecting twice is the same as disconnecting once. */
  lemma DisconnectIdempotent<C>(s: Service<C>)
    requires Valid(s)
    ensures Disconnect(Disconnect(s).state) == Step(Disconnect(s).state, [])
  {
  }
}

=== FILE: realtime_service.dfy ===
/**
 * The TypeScript `RealTimeDataService`: two subscriber lists (data and
 * connection status), the `isConnected` and `isOnline` flags, and the
 * 30-second update interval, driven by explicit events. The browser's
 * `online`/`offline` events and the interval firing are events like the
 * method calls; each transition returns the next state and the callbacks
 * it invokes, in order.
 *
 * Callbacks are values of the type parameters, compared by identity.
 */
module RealTimeService {
  import opened Prelude
  import opened Domain
  import opened Registry
  import opened Timers
  import opened DayCycle

  datatype Service<C, S> = Service(
    subscribers: seq<C>,
    statusSubscribers: seq<S>,
    isConnected: bool,
    isOnline: bool,
    updateInterval: Option<nat>,
    timers: TimerTable)

  /** A callback invocation: a status callback with the connectivity, or a data callback with an update. */
  datatype Output<C, S> = Status(statusTo: S, connected: bool) | Data(dataTo: C, update: RealTimeData)

  /** The state after a transition and the callbacks it invoked, in order. */
  datatype Step<C, S> = Step(state: Service<C, S>, outputs: seq<Output<C, S>>)

  /** The constructor: no subscribers, disconnected, online as the browser reports. */
  function New<C, S>(online: bool): (s: Service<C, S>)
    ensures Valid(s)
    ensures s.subscribers == [] && s.statusSubscribers == []
    ensures !s.isConnected && s.updateInterval == None && s.isOnline == online
  {
    Service([], [], false, online, None, NoTimers)
  }

  /**
   * The service invariant: a stored interval handle is live, and one is
   * stored exactly while the service is connected.
   */
  predicate Valid<C, S>(s: Service<C, S>) {
    && Timers.Valid(s.timers)
    && (s.updateInterval.Some? <==> s.isConnected)
    && (s.updateInterval.Some? ==> s.updateInterval.value in s.timers.live)
  }

  /** The only connectivity the service ever reports. */
  predicate ActuallyConnected<C, S>(s: Service<C, S>) {
    s.isConnected && s.isOnline
  }

  /** `getConnectionStatus`; `now` stands for `new Date()`. */
  function GetConnectionStatus<C, S>(s: Service<C, S>, now: int): (r: ConnectionStatus)
    ensures r.isConnected <==> s.isConnected && s.isOnline
    ensures r.subscriberCount == |s.subscribers|
    ensures r.lastUpdate == now
  {
    ConnectionStatus(ActuallyConnected(s), |s.subscribers|, now)
  }

  // ---------------------------------------------------------------------------
  // Subscriptions

  function SubscribeData<C, S>(s: Service<C, S>, cb: C): (r: Service<C, S>)
    ensures r.subscribers == s.subscribers + [cb]
    ensures r == s.(subscribers := r.subscribers)
  {
    s.(subscribers := Subscribe(s.subscribers, cb))
  }

  function UnsubscribeData<C(==, !new), S>(s: Service<C, S>, cb: C): (r: Service<C, S>)
    ensures cb !in r.subscribers
    ensures r == s.(subscribers := r.subscribers)
  {
    s.(subscribers := Unsubscribe(s.subscribers, cb))
  }

  function SubscribeStatus<C, S>(s: Service<C, S>, cb: S): (r: Service<C, S>)
    ensures r.statusSubscribers == s.statusSubscribers + [cb]
    ensures r == s.(statusSubscribers := r.statusSubscribers)
  {
    s.(statusSubscribers := Subscribe(s.statusSubscribers, cb))
  }

  function UnsubscribeStatus<C, S(==, !new)>(s: Service<C, S>, cb: S): (r: Service<C, S>)
    ensures cb !in r.statusSubscribers
    ensures r == s.(statusSubscribers := r.statusSubscribers)
  {
    s.(statusSubscribers := Unsubscribe(s.statusSubscribers, cb))
  }

  // ---------------------------------------------------------------------------
  // Notifications

  /** `notifyConnectionStatusSubscribers`: every status callback, in order, with `isConnected && isOnline`. */
  function NotifyStatus<C, S>(s: Service<C, S>): (out: seq<Output<C, S>>)
    ensures |out| == |s.statusSubscribers|
    ensures forall i :: 0 <= i < |out| ==> out[i] == Status(s.statusSubscribers[i], ActuallyConnected(s))
  {
    var ds := Broadcast(s.statusSubscribers, ActuallyConnected(s));
    seq(|ds|, i requires 0 <= i < |ds| => Status(ds[i].to, ds[i].value))
  }

  /**
   * `fetchAndBroadcastUpdates`: one simulated update, delivered to every
   * data callback in order. The broadcast does not look at `isConnected`.
   */
  function FetchAndBroadcast<C, S>(s: Service<C, S>, c: Clock): (out: seq<Output<C, S>>)
    ensures |out| == |s.subscribers|
    ensures forall i :: 0 <= i < |out| ==> out[i] == Data(s.subscribers[i], FetchRealTimeUpdates(c))
  {
    var ds := Broadcast(s.subscribers, FetchRealTimeUpdates(c));
    seq(|ds|, i requires 0 <= i < |ds| => Data(ds[i].to, ds[i].value))
  }

  // ---------------------------------------------------------------------------
  // Transitions

  /**
   * `connect`: set the flag, notify, arm a new interval (a handle already
   * stored is overwritten without being cleared) and, when online, fetch
   * and broadcast once.
   */
  function Connect<C, S>(s: Service<C, S>, c: Clock): (r: Step<C, S>)
    requires Valid(s)
    ensures Valid(r.state)
    ensures r.state.isConnected && r.state.isOnline == s.isOnline
    ensures r.state.subscribers == s.subscribers && r.state.statusSubscribers == s.statusSubscribers
    ensures r.state.updateInterval.value !in s.timers.live
    ensures r.state.timers.live == s.timers.live + {r.state.updateInterval.value}
    ensures r.outputs == NotifyStatus(r.state) + (if s.isOnline then FetchAndBroadcast(r.state, c) else [])
  {
    var connected := s.(isConnected := true);
    var (handle, timers) := Arm(s.timers);
    var next := connected.(updateInterval := Some(handle), timers := timers);
    Step(next, NotifyStatus(connected) + (if next.isOnline then FetchAndBroadcast(next, c) else []))
  }

  /**
   * `disconnect`: clear the flag, clear and forget the stored interval if
   * any, and notify every status callback, on every call.
   */
  function Disconnect<C, S>(s: Service<C, S>): (r: Step<C, S>)
    requires Valid(s)
    ensures Valid(r.state)
    ensures !r.state.isConnected && r.state.updateInterval == None
    ensures r.state.timers.live == if s.updateInterval.Some? then s.timers.live - {s.updateInterval.value} else s.timers.live
    ensures r.state == s.(isConnected := false, updateInterval := None, timers := r.state.timers)
    ensures r.outputs == seq(|s.statusSubscribers|, i requires 0 <= i < |s.statusSubscribers| => Status(s.statusSubscribers[i], false))
  {
    var timers := if s.updateInterval.Some? then Cancel(s.timers, s.updateInterval.value) else s.timers;
    var next := s.(isConnected := false, updateInterval := None, timers := timers);
    Step(next, NotifyStatus(next))
  }

  /**
   * One firing of interval `h`. A cleared interval never fires; a live one
   * fetches and broadcasts when online, whatever `isConnected` says.
   */
  function Tick<C, S>(s: Service<C, S>, h: nat, c: Clock): (r: Step<C, S>)
    ensures r.state == s
    ensures h !in s.timers.live || !s.isOnline ==> r.outputs == []
    ensures h in s.timers.live && s.isOnline ==>
              |r.outputs| == |s.subscribers| && forall o :: o in r.outputs ==> o.Data? && o.update == FetchRealTimeUpdates(c)
    ensures h in s.timers.live && s.isOnline ==> r.outputs == FetchAndBroadcast(s, c)
  {
    Step(s, if h in s.timers.live && s.isOnline then FetchAndBroadcast(s, c) else [])
  }

  /** `handleOnline`: set the flag; only when connected, notify and then fetch. */
  function HandleOnline<C, S>(s: Service<C, S>, c: Clock): (r: Step<C, S>)
    ensures r.state == s.(isOnline := true)
    ensures !s.isConnected ==> r.outputs == []
    ensures s.isConnected ==> |r.outputs| == |s.statusSubscribers| + |s.subscribers|
    ensures s.isConnected ==> r.outputs == NotifyStatus(r.state) + FetchAndBroadcast(r.state, c)
    ensures s.isConnected ==> forall i :: 0 <= i < |s.statusSubscribers| ==> r.outputs[i] == Status(s.statusSubscribers[i], true)
    ensures s.isConnected ==> forall i :: 0 <= i < |s.subscribers| ==>
              r.outputs[|s.statusSubscribers| + i] == Data(s.subscribers[i], FetchRealTimeUpdates(c))
  {
    var next := s.(isOnline := true);
    Step(next, if next.isConnected then NotifyStatus(next) + FetchAndBroadcast(next, c) else [])
  }

  /** `handleOffline`: clear the flag and always notify (with false). */
  function HandleOffline<C, S>(s: Service<C, S>): (r: Step<C, S>)
    ensures r.state == s.(isOnline := false)
    ensures r.outputs == seq(|s.statusSubscribers|, i requires 0 <= i < |s.statusSubscribers| => Status(s.statusSubscribers[i], false))
  {
    var next := s.(isOnline := false);
    Step(next, NotifyStatus(next))
  }

  // ---------------------------------------------------------------------------
  // Events

  datatype Event<C, S> =
    | Subscribed(cb: C)
    | Unsubscribed(cb: C)
    | StatusSubscribed(statusCb: S)
    | StatusUnsubscribed(statusCb: S)
    | ConnectCalled(clock: Clock)
    | DisconnectCalled
    | IntervalFired(handle: nat, clock: Clock)
    | BrowserOnline(clock: Clock)
    | BrowserOffline

  function Apply<C(==, !new), S(==, !new)>(s: Service<C, S>, e: Event<C, S>): (r: Step<C, S>)
    requires Valid(s)
    ensures Valid(r.state)
  {
    match e
    case Subscribed(cb) => Step(SubscribeData(s, cb), [])
    case Unsubscribed(cb) => Step(UnsubscribeData(s, cb), [])
    case StatusSubscribed(cb) => Step(SubscribeStatus(s, cb), [])
    case StatusUnsubscribed(cb) => Step(UnsubscribeStatus(s, cb), [])
    case ConnectCalled(c) => Connect(s, c)
    case DisconnectCalled => Disconnect(s)
    case IntervalFired(h, c) => Tick(s, h, c)
    case BrowserOnline(c) => HandleOnline(s, c)
    case BrowserOffline => HandleOffline(s)
  }

  /** The whole history: events applied in order, outputs concatenated. */
  function Run<C(==, !new), S(==, !new)>(s: Service<C, S>, es: seq<Event<C, S>>): (r: Step<C, S>)
    requires Valid(s)
    ensures Valid(r.state)
    decreases |es|
  {
    if |es| == 0 then Step(s, [])
    else
      var prior := Run(s, es[..|es| - 1]);
      var last := Apply(prior.state, es[|es| - 1]);
      Step(last.state, prior.outputs + last.outputs)
  }

  /**
   * Whatever the event, every status callback invoked is told exactly the
   * connectivity `getConnectionStatus` reports afterwards, and data is
   * delivered only while the browser is online.
   */
  lemma ReportedConnectivityAgrees<C(!new), S(!new)>(s: Service<C, S>, e: Event<C, S>, now: int)
    requires Valid(s)
    ensures var r := Apply(s, e);
            forall o :: o in r.outputs && o.Status? ==> o.connected == GetConnectionStatus(r.state, now).isConnected
    ensures var r := Apply(s, e);
            (exists o :: o in r.outputs && o.Data?) ==> r.state.isOnline
  {
    match e
    case BrowserOnline(c) => OnlineOutputsAgree(s, c, now);
    case _ =>
  }

  lemma OnlineOutputsAgree<C, S>(s: Service<C, S>, c: Clock, now: int)
    ensures var r := HandleOnline(s, c);
            && (forall o :: o in r.outputs && o.Status? ==> o.connected == GetConnectionStatus(r.state, now).isConnected)
            && ((exists o :: o in r.outputs && o.Data?) ==> r.state.isOnline)
  {
    var r := HandleOnline(s, c);
    if s.isConnected {
      forall o | o in r.outputs && o.Status?
        ensures o.connected == GetConnectionStatus(r.state, now).isConnected
      {
        var i :| 0 <= i < |r.outputs| && r.outputs[i] == o;
        assert i < |s.statusSubscribers|;
      }
    }
  }

  /**
   * A second `disconnect` leaves the state as the first left it, yet
   * notifies every status callback again.
   */
  lemma DisconnectTwice<C, S>(s: Service<C, S>)
    requires Valid(s)
    ensures var first := Disconnect(s);
            var second := Disconnect(first.state);
            && second.state == first.state
            && second.outputs == first.outputs
            && |second.outputs| == |s.statusSubscribers|
  {
  }

  /** After a single connect, disconnect stops the updates: the interval it armed never fires again. */
  lemma DisconnectStopsInterval<C, S>(s: Service<C, S>, c: Clock, c': Clock)
    requires Valid(s) && !s.isConnected
    ensures var connected := Connect(s, c).state;
            var stopped := Disconnect(connected).state;
            Tick(stopped, connected.updateInterval.value, c').outputs == []
  {
  }

  /**
   * Calling `connect` twice loses the first interval's handle: after a
   * `disconnect`, that interval is still live and, while online, still
   * broadcasts to every data callback although the service is disconnected.
   */
  lemma ConnectTwiceLeaksInterval<C, S>(s: Service<C, S>, c: Clock, c': Clock)
    requires Valid(s) && s.isOnline
    ensures var once := Connect(s, c).state;
            var twice := Connect(once, c).state;
            var stopped := Disconnect(twice).state;
            && !stopped.isConnected
            && once.updateInterval.value in stopped.timers.live
            && Tick(stopped, once.updateInterval.value, c').outputs == FetchAndBroadcast(s, c')
  {
  }
}

=== FILE: registry.dfy ===
/**
 * The subscriber lists of the real-time services: `subscribe` appends the
 * callback, the returned unsubscribe function filters out every
 * registration equal to it, and a broadcast calls every registered
 * callback in registration order. Callbacks are compared by identity,
 * modelled as equality on the type parameter.
 */
module Registry {

  /** `list.push(callback)`. */
  function Subscribe<C>(list: seq<C>, cb: C): (r: seq<C>)
    ensures |r| == |list| + 1 && r[..|list|] == list && r[|list|] == cb
  {
    list + [cb]
  }

  /** `list.filter(sub => sub !== callback)`. */
  function Unsubscribe<C(==, !new)>(list: seq<C>, cb: C): (r: seq<C>)
    ensures |r| <= |list|
    ensures forall x :: x in r <==> x in list && x != cb
    ensures multiset(r)[cb] == 0
    ensures forall x :: x != cb ==> multiset(r)[x] == multiset(list)[x]
  {
    if |list| == 0 then []
    else
      var prefix := Unsubscribe(list[..|list| - 1], cb);
      var last := list[|list| - 1];
      assert list == list[..|list| - 1] + [last];
      if last == cb then prefix else prefix + [last]
  }

  /** Filtering distributes over concatenation, so the survivors keep their relative order. */
  lemma {:induction false} UnsubscribeAppend<C(!new)>(a: seq<C>, b: seq<C>, cb: C)
    ensures Unsubscribe(a + b, cb) == Unsubscribe(a, cb) + Unsubscribe(b, cb)
    decreases |b|
  {
    if |b| == 0 {
      assert a + b == a;
    } else {
      var b' := b[..|b| - 1];
      assert (a + b)[..|a + b| - 1] == a + b';
      UnsubscribeAppend(a, b', cb);
    }
  }

  /** Removing a callback that is not registered changes nothing. */
  lemma {:induction false} UnsubscribeAbsent<C(!new)>(list: seq<C>, cb: C)
    requires cb !in list
    ensures Unsubscribe(list, cb) == list
  {
    if |list| > 0 {
      var init := list[..|list| - 1];
      assert forall x :: x in init ==> x in list;
      UnsubscribeAbsent(init, cb);
      assert list == init + [list[|list| - 1]];
    }
  }

  /** Unsubscribing a second time has no further effect. */
  lemma UnsubscribeIdempotent<C(!new)>(list: seq<C>, cb: C)
    ensures Unsubscribe(Unsubscribe(list, cb), cb) == Unsubscribe(list, cb)
  {
    UnsubscribeAbsent(Unsubscribe(list, cb), cb);
  }

  /** The unsubscribe function of a fresh registration restores the list exactly. */
  lemma SubscribeThenUnsubscribe<C(!new)>(list: seq<C>, cb: C)
    requires cb !in list
    ensures Unsubscribe(Subscribe(list, cb), cb) == list
  {
    UnsubscribeAppend(list, [cb], cb);
    UnsubscribeAbsent(list, cb);
    assert Unsubscribe([cb], cb) == [] by {
      assert [cb][..0] == [];
    }
  }

  /**
   * A callback registered twice is dropped entirely by one unsubscribe, and
   * every other registration survives in order.
   */
  lemma {:induction false} DoubleSubscribeRemovesBoth<C(!new)>(list: seq<C>, cb: C)
    ensures Unsubscribe(Subscribe(Subscribe(list, cb), cb), cb) == Unsubscribe(list, cb)
  {
    assert Subscribe(Subscribe(list, cb), cb) == list + [cb, cb];
    UnsubscribeAppend(list, [cb, cb], cb);
    assert Unsubscribe([cb, cb], cb) == [] by {
      assert [cb, cb][..1] == [cb];
      assert [cb][..0] == [];
    }
    assert Unsubscribe(list, cb) + [] == Unsubscribe(list, cb);
  }

  /** One delivery: the callback called and the value it was called with. */
  datatype Delivery<C, V> = Delivery(to: C, value: V)

  /**
   * `list.forEach(cb => { try { cb(value) } catch {} })`: every callback is
   * called once per registration, in order. An exception thrown by a
   * callback is caught, so it never prevents the later deliveries.
   */
  function Broadcast<C, V>(list: seq<C>, value: V): (r: seq<Delivery<C, V>>)
    ensures |r| == |list|
    ensures forall i :: 0 <= i < |r| ==> r[i].to == list[i] && r[i].value == value
  {
    if |list| == 0 then []
    else Broadcast(list[..|list| - 1], value) + [Delivery(list[|list| - 1], value)]
  }

  /** After unsubscribing, a callback receives nothing from any broadcast. */
  lemma UnsubscribedReceivesNothing<C(!new), V>(list: seq<C>, cb: C, value: V)
    ensures forall d :: d in Broadcast(Unsubscribe(list, cb), value) ==> d.to != cb
  {
  }
}

=== FILE: stats_overview.dfy ===
/**
 * The statistics panel (`src/components/map/StatsOverview.tsx`): state-wide
 * averages over the county list, the county with the largest renewable
 * share, and the per-capita usage figure.
 *
 * The county list may be absent (`counties?.length`), so it is an `Option`.
 */
module StatsOverview {
  import opened Prelude
  import opened Domain

  /** The sustainability scores, in county order. */
  function Scores(cs: seq<County>): (xs: seq<real>)
    ensures |xs| == |cs|
    ensures forall i :: 0 <= i < |cs| ==> xs[i] == cs[i].sustainabilityScore
  {
    seq(|cs|, i requires 0 <= i < |cs| => cs[i].sustainabilityScore)
  }

  /** The per-capita footprints, a county without a footprint counting as 0. */
  function FootprintsPerCapita(cs: seq<County>): (xs: seq<real>)
    ensures |xs| == |cs|
    ensures forall i :: 0 <= i < |cs| ==>
              xs[i] == if cs[i].carbonFootprint.Some? then cs[i].carbonFootprint.value.perCapitaCarbonTonsPerYear else 0.0
  {
    seq(|cs|, i requires 0 <= i < |cs| =>
      if cs[i].carbonFootprint.Some? then cs[i].carbonFootprint.value.perCapitaCarbonTonsPerYear else 0.0)
  }

  /** The mean of `xs` over a present, non-empty list, 0 otherwise. */
  function MeanOrZero(present: bool, xs: seq<real>): (m: real)
    ensures !present || |xs| == 0 ==> m == 0.0
    ensures present && |xs| > 0 ==> m * |xs| as real == Sum(xs)
  {
    if present && |xs| > 0 then Sum(xs) / |xs| as real else 0.0
  }

  /**
   * `avgSustainabilityScore`: 0 when the list is absent or empty, otherwise
   * the sum of the scores divided by the number of counties.
   */
  function AvgSustainabilityScore(counties: Option<seq<County>>): (avg: real)
    ensures counties.None? || |counties.value| == 0 ==> avg == 0.0
    ensures counties.Some? && |counties.value| > 0 ==>
              avg * |counties.value| as real == Sum(Scores(counties.value))
  {
    var cs := counties.GetOr([]);
    MeanOrZero(counties.Some?, Scores(cs))
  }

  /**
   * `avgCarbonFootprintPerCapita`: the same rule, over the per-capita
   * footprints with a missing footprint counted as 0.
   */
  function AvgCarbonFootprintPerCapita(counties: Option<seq<County>>): (avg: real)
    ensures counties.None? || |counties.value| == 0 ==> avg == 0.0
    ensures counties.Some? && |counties.value| > 0 ==>
              avg * |counties.value| as real == Sum(FootprintsPerCapita(counties.value))
  {
    var cs := counties.GetOr([]);
    MeanOrZero(counties.Some?, FootprintsPerCapita(cs))
  }

  /** When every score lies in [lo, hi], so does the average of a non-empty list. */
  lemma AvgSustainabilityWithinScores(cs: seq<County>, lo: real, hi: real)
    requires |cs| > 0
    requires forall i :: 0 <= i < |cs| ==> lo <= cs[i].sustainabilityScore <= hi
    ensures lo <= AvgSustainabilityScore(Some(cs)) <= hi
  {
    MeanBounds(Scores(cs), lo, hi);
  }

  /** When every footprint present lies in [0, hi], the average lies in [0, hi]. */
  lemma AvgFootprintWithinBounds(cs: seq<County>, hi: real)
    requires |cs| > 0 && hi >= 0.0
    requires forall i :: 0 <= i < |cs| && cs[i].carbonFootprint.Some? ==>
               0.0 <= cs[i].carbonFootprint.value.perCapitaCarbonTonsPerYear <= hi
    ensures 0.0 <= AvgCarbonFootprintPerCapita(Some(cs)) <= hi
  {
    MeanBounds(FootprintsPerCapita(cs), 0.0, hi);
  }

  /** What the leader card shows: a name, a renewable share and a capacity. */
  datatype Leader = Leader(name: string, renewablePercentage: real, renewableCapacityMw: real)

  /** The placeholder shown when there are no counties. */
  const NoLeader: Leader := Leader("", 0.0, 0.0)

  function LeaderOf(c: County): Leader {
    Leader(c.name, c.renewablePercentage, c.renewableCapacityMw)
  }

  /**
   * `i` is the last position holding the largest renewable share: no county
   * has more, and every later county has strictly less.
   */
  predicate LastBest(cs: seq<County>, i: int) {
    && 0 <= i < |cs|
    && (forall j :: 0 <= j < |cs| ==> cs[j].renewablePercentage <= cs[i].renewablePercentage)
    && (forall j :: i < j < |cs| ==> cs[j].renewablePercentage < cs[i].renewablePercentage)
  }

  /**
   * `topRenewableCounty`: the reduction keeps the earlier county only when
   * its share is strictly larger, so of several counties sharing the top
   * share the last one wins. An absent or empty list gives the placeholder.
   */
  method TopRenewableCounty(counties: Option<seq<County>>) returns (top: Leader)
    ensures counties.None? || |counties.value| == 0 ==> top == NoLeader
    ensures counties.Some? && |counties.value| > 0 ==>
              exists i :: LastBest(counties.value, i) && top == LeaderOf(counties.value[i])
  {
    if counties.None? || |counties.value| == 0 {
      return NoLeader;
    }
    var cs := counties.value;
    var best := 0;
    var k := 1;
    while k < |cs|
      invariant 1 <= k <= |cs|
      invariant LastBest(cs[..k], best)
    {
      if !(cs[best].renewablePercentage > cs[k].renewablePercentage) {
        best := k;
      }
      k := k + 1;
    }
    assert cs[..k] == cs;
    top := LeaderOf(cs[best]);
  }

  /** The last-best position is unique, so the leader is determined by the list alone. */
  lemma LastBestUnique(cs: seq<County>, i: int, j: int)
    requires LastBest(cs, i) && LastBest(cs, j)
    ensures i == j
  {
    assert cs[i].renewablePercentage == cs[j].renewablePercentage;
  }

  /** `x || d` on a number: the number, or `d` when it is 0 (or absent). */
  function OrDefault(x: Option<real>, d: real): (r: real)
    ensures x.Some? && x.value != 0.0 ==> r == x.value
    ensures x.None? || x.value == 0.0 ==> r == d
  {
    if x.Some? && x.value != 0.0 then x.value else d
  }

  /**
   * The per-capita usage in kWh: state consumption over `total_population ||
   * 1`, times 1000. The divisor is never 0; with a known non-zero population
   * the figure is consumption per person in kWh, and without totals it is 0.
   */
  function PerCapitaKwh(data: Option<StateTotals>): (kwh: real)
    ensures data.None? ==> kwh == 0.0
    ensures data.Some? && data.value.totalPopulation != 0.0 ==>
              kwh * data.value.totalPopulation == data.value.totalConsumption * 1000.0
    ensures data.Some? && data.value.totalPopulation == 0.0 ==> kwh == data.value.totalConsumption * 1000.0
  {
    var consumption := OrDefault(if data.Some? then Some(data.value.totalConsumption) else None, 0.0);
    var population := OrDefault(if data.Some? then Some(data.value.totalPopulation) else None, 1.0);
    assert population != 0.0;
    consumption / population * 1000.0
  }
}

=== FILE: time_data.dfy ===
/**
 * The county history panel (`src/components/TimeData.tsx`): a client-side
 * generator of twelve monthly and ten yearly synthetic points for the
 * selected county, and the empty-data guard of its chart.
 *
 * The current month is an absolute month index (year * 12 + month); the
 * sine of each month's seasonal angle and the `Math.random` draws are
 * parameters, one `Draw` per point, indexed from the oldest point.
 */
module TimeData {
  import opened Prelude
  import opened Domain
  import Historical

  /** `Math.pow(b, n)` for a natural exponent. */
  function Pow(b: real, n: nat): real {
    if n == 0 then 1.0 else b * Pow(b, n - 1)
  }

  /** A base of at least 1 raised to any power is at least 1. */
  lemma {:induction false} PowAtLeastOne(b: real, n: nat)
    requires b >= 1.0
    ensures Pow(b, n) >= 1.0
  {
    if n > 0 {
      PowAtLeastOne(b, n - 1);
      var p := Pow(b, n - 1);
      MulNonNegative(b - 1.0, p - 1.0);
      assert (b - 1.0) * (p - 1.0) == b * p - b - p + 1.0;
    }
  }

  /** For a base above 1 the powers strictly increase with the exponent. */
  lemma {:induction false} PowIncreasing(b: real, m: nat, n: nat)
    requires b > 1.0 && m < n
    ensures Pow(b, m) < Pow(b, n)
    decreases n
  {
    PowAtLeastOne(b, n - 1);
    var p := Pow(b, n - 1);
    MulPositive(b - 1.0, p);
    assert b * p - p == (b - 1.0) * p;
    if m < n - 1 {
      PowIncreasing(b, m, n - 1);
    }
  }

  /** The yearly growth factor as written: `1.02 ** i` with `i = 9 - k` for the point `k` places after the oldest. */
  function GrowthAsWritten(k: nat): (g: real)
    requires k < 10
    ensures g >= 1.0
  {
    PowAtLeastOne(1.02, 9 - k);
    Pow(1.02, 9 - k)
  }

  /** The intended yearly growth factor: 2% more for each year after the oldest. */
  function Growth(k: nat): (g: real)
    requires k < 10
    ensures g >= 1.0
  {
    PowAtLeastOne(1.02, k);
    Pow(1.02, k)
  }

  /** Monthly jitter times seasonal multiplier lies in [0.56, 1.56]. */
  lemma MonthlyFactorBounds(s: real, j: real)
    requires 0.7 <= s <= 1.3 && 0.8 <= j < 1.2
    ensures 0.56 <= s * j <= 1.56
  {
    MulNonNegative(s - 0.7, j - 0.8);
    MulNonNegative(1.3 - s, j - 0.8);
    assert (s - 0.7) * (j - 0.8) == s * j - 0.8 * s - 0.7 * j + 0.56;
    assert (1.3 - s) * (j - 0.8) == 1.3 * j - 1.04 - s * j + 0.8 * s;
  }

  /**
   * The monthly point `k` places after the oldest (`i = 11 - k` in the
   * source): the month `i` months back, a twelfth of the annual consumption
   * times the seasonal multiplier and a jitter in [0.8, 1.2), and the
   * county's renewable share moved by up to 5 points but capped at 50.
   */
  function MonthlyPoint(c: County, nowMonth: int, k: nat, d: Draw): (p: Historical.Point)
    requires k < 12
    ensures p.date == Historical.MonthOf(nowMonth - 11 + k)
    ensures Min(50.0, c.renewablePercentage - 5.0) <= p.renewablePercentage <= 50.0
    ensures c.consumptionMwh >= 0.0 ==>
              c.consumptionMwh / 12.0 * 0.56 - 0.5 < p.consumptionMwh as real <= c.consumptionMwh / 12.0 * 1.56 + 0.5
  {
    var i := 11 - k;
    var baseConsumption := c.consumptionMwh / 12.0;
    var seasonal := Historical.Seasonal(d);
    var jitter := 0.8 + d.jitter * 0.4;
    var factor := seasonal * jitter;
    MonthlyFactorBounds(seasonal, jitter);
    var p := Historical.Point(
      Historical.MonthOf(nowMonth - i),
      Round(baseConsumption * factor),
      Min(50.0, c.renewablePercentage + (d.noise - 0.5) * 10.0));
    if baseConsumption >= 0.0 then RoundScaled(baseConsumption, 0.56, factor, 1.56); p else p
  }

  /**
   * The yearly point `k` places after the oldest (`i = 9 - k` in the
   * source), for a given growth factor: the year `i` years back, the annual
   * consumption times the growth and a jitter in [0.9, 1.1), and the
   * renewable share moved by up to 7.5 points plus 1.5 points for each year
   * after the oldest, capped at 50.
   */
  function YearlyPoint(c: County, nowYear: int, k: nat, d: Draw, growth: real): (p: Historical.Point)
    requires k < 10 && growth >= 1.0
    ensures p.date == Historical.YearOf(nowYear - 9 + k)
    ensures Min(50.0, c.renewablePercentage - 7.5 + 1.5 * k as real) <= p.renewablePercentage <= 50.0
    ensures c.consumptionMwh >= 0.0 ==>
              c.consumptionMwh * growth * 0.9 - 0.5 < p.consumptionMwh as real <= c.consumptionMwh * growth * 1.1 + 0.5
  {
    var i := 9 - k;
    var jitter := 0.9 + d.jitter * 0.2;
    var scaled := c.consumptionMwh * growth;
    var p := Historical.Point(
      Historical.YearOf(nowYear - i),
      Round(scaled * jitter),
      Min(50.0, c.renewablePercentage + (d.noise - 0.5) * 15.0 + (9 - i) as real * 1.5));
    if c.consumptionMwh >= 0.0 then MulNonNegative(c.consumptionMwh, growth); RoundScaled(scaled, 0.9, jitter, 1.1); p else p
  }

  /** The twelve monthly points, oldest first. */
  function MonthlySeries(c: County, nowMonth: int, monthDraw: nat -> Draw): (ps: seq<Historical.Point>)
    ensures |ps| == 12
    ensures forall k :: 0 <= k < 12 ==> ps[k] == MonthlyPoint(c, nowMonth, k, monthDraw(k))
  {
    seq(12, k requires 0 <= k < 12 => MonthlyPoint(c, nowMonth, k, monthDraw(k)))
  }

  /** The ten yearly points, oldest first, with the growth factor as written or as intended. */
  function YearlySeries(c: County, nowYear: int, yearDraw: nat -> Draw, asWritten: bool): (ps: seq<Historical.Point>)
    ensures |ps| == 10
    ensures forall k :: 0 <= k < 10 ==>
              ps[k] == YearlyPoint(c, nowYear, k, yearDraw(k), if asWritten then GrowthAsWritten(k) else Growth(k))
  {
    seq(10, k requires 0 <= k < 10 =>
      YearlyPoint(c, nowYear, k, yearDraw(k), if asWritten then GrowthAsWritten(k) else Growth(k)))
  }

  /** The shared shape of both generators: nothing without a county, else twelve consecutive months and ten consecutive years ending now. */
  predicate WellShaped(county: Option<County>, nowMonth: int, h: Historical.HistoricalData) {
    && (county.None? ==> h.monthlyData == [] && h.yearlyData == [])
    && (county.Some? ==>
          && |h.monthlyData| == 12 && |h.yearlyData| == 10
          && (forall k :: 0 <= k < 12 ==> h.monthlyData[k].date == Historical.MonthOf(nowMonth - 11 + k))
          && (forall k :: 0 <= k < 10 ==> h.yearlyData[k].date == Historical.YearOf(nowMonth / 12 - 9 + k))
          && (forall k :: 0 <= k < 12 ==> h.monthlyData[k].renewablePercentage <= 50.0)
          && (forall k :: 0 <= k < 10 ==> h.yearlyData[k].renewablePercentage <= 50.0))
  }

  /** `generateHistoricalData` as written, with the growth factor shrinking towards the present. */
  function GenerateHistoricalDataAsWritten(county: Option<County>, nowMonth: int,
                                           monthDraw: nat -> Draw, yearDraw: nat -> Draw): (h: Historical.HistoricalData)
    ensures WellShaped(county, nowMonth, h)
  {
    match county
    case None => Historical.HistoricalData([], [])
    case Some(c) => Historical.HistoricalData(MonthlySeries(c, nowMonth, monthDraw), YearlySeries(c, nowMonth / 12, yearDraw, true))
  }

  /**
   * `generateHistoricalData` with the growth factor rising towards the
   * present: no data without a county; otherwise twelve monthly points
   * ending at the current month and ten yearly points ending at the current
   * year, oldest first, with every renewable share at most 50.
   */
  function GenerateHistoricalData(county: Option<County>, nowMonth: int,
                                  monthDraw: nat -> Draw, yearDraw: nat -> Draw): (h: Historical.HistoricalData)
    ensures WellShaped(county, nowMonth, h)
  {
    match county
    case None => Historical.HistoricalData([], [])
    case Some(c) => Historical.HistoricalData(MonthlySeries(c, nowMonth, monthDraw), YearlySeries(c, nowMonth / 12, yearDraw, false))
  }

  /** Equal jitter draws and a larger growth factor never give a smaller yearly consumption. */
  lemma YearlyConsumptionMonotone(c: County, nowYear: int, k1: nat, k2: nat, d1: Draw, d2: Draw, g1: real, g2: real)
    requires k1 < 10 && k2 < 10 && 1.0 <= g1 <= g2
    requires c.consumptionMwh >= 0.0 && d1.jitter == d2.jitter
    ensures YearlyPoint(c, nowYear, k1, d1, g1).consumptionMwh <= YearlyPoint(c, nowYear, k2, d2, g2).consumptionMwh
  {
    var jitter := 0.9 + d1.jitter * 0.2;
    MulNonNegative(g2 - g1, c.consumptionMwh * jitter);
    MulNonNegative(c.consumptionMwh, jitter);
    assert (g2 - g1) * (c.consumptionMwh * jitter) == c.consumptionMwh * g2 * jitter - c.consumptionMwh * g1 * jitter;
    RoundMonotone(c.consumptionMwh * g1 * jitter, c.consumptionMwh * g2 * jitter);
  }

  /**
   * As written, the growth factor of the oldest year is the largest: it
   * falls strictly from year to year, so with equal jitter draws a later
   * year never shows more consumption than an earlier one.
   */
  lemma AsWrittenYearlyTrendFalls(c: County, nowMonth: int, monthDraw: nat -> Draw, yearDraw: nat -> Draw, k1: nat, k2: nat)
    requires k1 < k2 < 10
    requires c.consumptionMwh >= 0.0 && yearDraw(k1).jitter == yearDraw(k2).jitter
    ensures GrowthAsWritten(k2) < GrowthAsWritten(k1)
    ensures var ys := GenerateHistoricalDataAsWritten(Some(c), nowMonth, monthDraw, yearDraw).yearlyData;
            ys[k2].consumptionMwh <= ys[k1].consumptionMwh
  {
    PowIncreasing(1.02, 9 - k2, 9 - k1);
    YearlyConsumptionMonotone(c, nowMonth / 12, k2, k1, yearDraw(k2), yearDraw(k1), GrowthAsWritten(k2), GrowthAsWritten(k1));
  }

  /**
   * With the intended factor the trend rises 2% a year: the growth factor
   * increases strictly, and with equal jitter draws a later year never
   * shows less consumption than an earlier one.
   */
  lemma YearlyTrendRises(c: County, nowMonth: int, monthDraw: nat -> Draw, yearDraw: nat -> Draw, k1: nat, k2: nat)
    requires k1 < k2 < 10
    requires c.consumptionMwh >= 0.0 && yearDraw(k1).jitter == yearDraw(k2).jitter
    ensures Growth(k1) < Growth(k2)
    ensures Growth(k1 + 1) == 1.02 * Growth(k1)
    ensures var ys := GenerateHistoricalData(Some(c), nowMonth, monthDraw, yearDraw).yearlyData;
            ys[k1].consumptionMwh <= ys[k2].consumptionMwh
  {
    PowIncreasing(1.02, k1, k2);
    YearlyConsumptionMonotone(c, nowMonth / 12, k1, k2, yearDraw(k1), yearDraw(k2), Growth(k1), Growth(k2));
  }

  /** The vertical scale of a chart: the smallest and largest consumption plotted. */
  datatype ChartScale = ChartScale(minConsumption: real, maxConsumption: real)

  /**
   * `createSVGChart`: nothing is drawn for an empty series; otherwise the
   * scale spans exactly the consumption figures of the series.
   */
  function CreateSvgChart(data: seq<Historical.Point>): (chart: Option<ChartScale>)
    ensures chart.None? <==> |data| == 0
    ensures chart.Some? ==>
              && chart.value.minConsumption <= chart.value.maxConsumption
              && (forall i :: 0 <= i < |data| ==>
                    chart.value.minConsumption <= data[i].consumptionMwh as real <= chart.value.maxConsumption)
              && (exists i :: 0 <= i < |data| && data[i].consumptionMwh as real == chart.value.minConsumption)
              && (exists i :: 0 <= i < |data| && data[i].consumptionMwh as real == chart.value.maxConsumption)
  {
    if |data| == 0 then None
    else
      var xs := Historical.Consumptions(data);
      assert forall i :: 0 <= i < |data| ==> xs[i] == data[i].consumptionMwh as real;
      Some(ChartScale(SeqMin(xs), SeqMax(xs)))
  }

  /** Both charts are drawn exactly when a county is selected. */
  lemma ChartsDrawnForSelectedCounty(county: Option<County>, nowMonth: int, monthDraw: nat -> Draw, yearDraw: nat -> Draw)
    ensures var h := GenerateHistoricalData(county, nowMonth, monthDraw, yearDraw);
            && (CreateSvgChart(h.monthlyData).Some? <==> county.Some?)
            && (CreateSvgChart(h.yearlyData).Some? <==> county.Some?)
  {
  }
}

=== FILE: timers.dfy ===
/**
 * `setInterval` / `clearInterval` as a table of live interval handles.
 * Arming hands out a handle no live interval uses; clearing removes only
 * the given handle. Only live intervals fire. Handles start at 1, so a
 * stored handle is always truthy, as the browser's are.
 */
module Timers {

  datatype TimerTable = TimerTable(live: set<nat>, next: nat)

  /** Every live handle was handed out before `next`, and 0 is never handed out. */
  predicate Valid(t: TimerTable) {
    t.next >= 1 && forall h :: h in t.live ==> 1 <= h < t.next
  }

  const NoTimers: TimerTable := TimerTable({}, 1)

  /** `setInterval`: a fresh handle and the table with it live. */
  function Arm(t: TimerTable): (r: (nat, TimerTable))
    requires Valid(t)
    ensures r.0 !in t.live && r.0 >= 1
    ensures r.1.live == t.live + {r.0}
    ensures Valid(r.1)
  {
    (t.next, TimerTable(t.live + {t.next}, t.next + 1))
  }

  /** `clearInterval`: the handle no longer fires; every other interval is untouched. */
  function Cancel(t: TimerTable, h: nat): (r: TimerTable)
    ensures r.live == t.live - {h}
    ensures Valid(t) ==> Valid(r)
  {
    t.(live := t.live - {h})
  }
}

=== FILE: ttl_cache.dfy ===
/**
 * The time-to-live rule shared by the request cache of the EIA client
 * (5 minutes) and the per-county cache of the historical service
 * (30 minutes): an entry is served while `now - timestamp < ttl`, is
 * replaced whole on refresh, and is never swept in the background.
 * Times are milliseconds as returned by `Date.now()`.
 */
module TtlCache {
  import opened Prelude

  datatype Entry<V> = Entry(data: V, timestamp: int)

  /** The strict freshness test: at exactly `ttl` milliseconds an entry is stale. */
  predicate Fresh<V>(e: Entry<V>, now: int, ttl: int) {
    now - e.timestamp < ttl
  }

  /** The cached value of a slot that may be empty, or `None` for a miss. */
  function Serve<V>(slot: Option<Entry<V>>, now: int, ttl: int): Option<V> {
    match slot
    case Some(e) => if Fresh(e, now, ttl) then Some(e.data) else None
    case None => None
  }

  /** A keyed cache (a JavaScript `Map` from key to entry). */
  type Cache<K, V> = map<K, Entry<V>>

  function Lookup<K, V>(c: Cache<K, V>, key: K, now: int, ttl: int): Option<V> {
    Serve(if key in c then Some(c[key]) else None, now, ttl)
  }

  function Store<K, V>(c: Cache<K, V>, key: K, value: V, at: int): (r: Cache<K, V>)
    ensures r.Keys == c.Keys + {key}
  {
    c[key := Entry(value, at)]
  }

  /** `Map.prototype.clear`. */
  function Clear<K, V>(c: Cache<K, V>): (r: Cache<K, V>)
    ensures |r| == 0
  {
    map[]
  }

  /** A value stored at `at` is served back while less than `ttl` has elapsed, and only then. */
  lemma StoreThenLookup<K, V>(c: Cache<K, V>, key: K, value: V, at: int, now: int, ttl: int)
    ensures Lookup(Store(c, key, value, at), key, now, ttl)
            == if now - at < ttl then Some(value) else None
  {
  }

  /** Storing under one key leaves every other key's answer as it was. */
  lemma StoreKeepsOtherKeys<K, V>(c: Cache<K, V>, key: K, other: K, value: V, at: int, now: int, ttl: int)
    requires other != key
    ensures Lookup(Store(c, key, value, at), other, now, ttl) == Lookup(c, other, now, ttl)
  {
  }

  /** Staleness is permanent: a miss at `now` is still a miss at every later time. */
  lemma MissStaysMiss<V>(slot: Option<Entry<V>>, now: int, later: int, ttl: int)
    requires now <= later
    requires Serve(slot, now, ttl) == None
    ensures Serve(slot, later, ttl) == None
  {
  }

  /**
   * An entry written at `at` is served one millisecond before the deadline
   * and missed at the deadline itself.
   */
  lemma ExpiresExactlyAtTtl<V>(value: V, at: int, ttl: int)
    ensures Serve(Some(Entry(value, at)), at + ttl - 1, ttl) == Some(value)
    ensures Serve(Some(Entry(value, at)), at + ttl, ttl) == None
  {
  }
}
